=== FILE: README.md ===
# DMX lighting controller — a Dafny model of its lighting engine

This project models the lighting engine of a small DMX512 controller (an
M5 touch-screen device with a web-socket UI and an Art-Net pass-through
mode), all of it in `src/main.cpp`. The model is a functional state
machine: the program's globals form one immutable record (`Rig.Lights`),
and every operation is a pure function from state to state.

The modules follow the program's parts:

- `Dmx`: machine-word types (`byte`, `u32`, `i32`), the rig's constants and the fixture channel layout (Dimmer, Red, Green, Blue, White, Strobe, Function, Speed).
- `Store`: the 512 channel states (64 fixtures × 8 channels, flat index `fixture * 8 + channel - 1`) and the direct writes `setChannelValue`, `setColor`, `setDimmer`, and the loops that repeat them over every fixture in use.
- `Easing`: the quadratic ease-in-out factor and the truncating per-tick move of a byte toward its target.
- `Transition`: the per-fixture step counters and active flags, `startTransition` and `updateTransition`.
- `Rig`: the whole controller state and its invariant.
- `Scenes`: `updateScene` (chase exact; rainbow with the colour conversion as a parameter), `startScene`, `stopScene` and `resetAll`.
- `Relay`: the Art-Net receive buffer, the ArtDmx decoder as written and corrected, and an ArtDmx encoder as its inverse.
- `Frame`: the DMX frame built from the current values, as written and corrected.
- `Controller`: web-socket commands and touch controls as closed datatypes.
- `Scheduler`: one iteration of `loop` with its millisecond cadences, and runs of iterations interleaved with web-socket messages. The output path comes in two readings: `AsWritten`, the program's 512-byte `dmxData` and its ArtDmx length bytes, where a write past the buffer is an outcome of its own; and `Corrected`, a 513-byte buffer and the ArtDmx length where the protocol puts it. The lights go through the same states under both, provided the write past the buffer clobbers nothing modelled; only the packets differ.

The time source, the received UDP datagram, the touch input and the HSV
colour conversion are parameters. Web-socket messages are handled on
another task by the program; here each is one atomic event between two
loop iterations.

Behaviour of the code that a reader might not expect, which the model follows:

- The snap of a transition to its target happens on the call after the fiftieth interpolation step, not on that step itself (`Transition.StillActiveAfterFifty`, `Transition.Settles`).
- `stopScene` restarts fixture 0's transition (`Scenes.StopScene`).
- In relay mode the loop skips touch, scenes, transitions and frames, but web-socket commands are still applied to the state (`Scheduler.Run`).
- The scene block runs whenever `currentScene` is non-zero; the generator itself checks `isRunningScene` and the manual override.

## Model

| member | source | states |
|---|---|---|
| Rig.Init | src/main.cpp:60-157 | the program's static initial values satisfy the state invariant, with every channel 0 and settled and no fixture transitioning |
| Store.Slot | src/main.cpp:759 | the flat index of a valid (fixture, channel) is in range and the fixture and channel decode back from it |
| Store.EverySlotAddressed | src/main.cpp:41-60 | every one of the 512 channel states belongs to exactly one valid (fixture, channel) address |
| Store.SetChannelValue | src/main.cpp:757-764 | a write sets exactly the addressed slot live (current = target = value, nothing pending), leaves every other slot as it was, and an out-of-range channel or fixture changes nothing |
| Store.LastWriteWins | src/main.cpp:757-764 | a second write to the same slot hides the first |
| Store.WritesCommute | src/main.cpp:757-764 | writes to different slots can be done in either order |
| Store.WriteFixtures | src/main.cpp:164-168 | the loop over fixtures in use leaves each of their slots as the last write to its channel made it, and other fixtures untouched |
| Store.ColorWritesCover | src/main.cpp:766-770 | the three writes of `setColor` set exactly the red, green and blue channels to the colour's components |
| Store.ResetWritesCover | src/main.cpp:164-167 | the inner loop of `resetAll` writes 0 to every channel 1..8 and nothing else |
| Store.WriteColor | src/main.cpp:766-770 | `setColor`: one fixture's three colour slots hold the colour live; every other slot is unchanged |
| Store.WriteDimmer | src/main.cpp:772 | `setDimmer`: one fixture's dimmer slot holds the value live; every other slot is unchanged |
| Store.SetAll | src/main.cpp:208-222 | one channel of every fixture in use holds the value live; every other slot is unchanged |
| Store.ColorAll | src/main.cpp:197-201 | the colour slots of every fixture in use hold the colour live; every other slot is unchanged |
| Store.ClearAll | src/main.cpp:164-168 | all eight slots of every fixture in use hold 0 live; fixtures beyond the count keep their slots |
| Store.WritesKeepCoherent | src/main.cpp:757-764 | direct writes never leave a settled slot away from its target |
| Easing.Ease | src/main.cpp:699-702 | the eased factor lies in [0, 1) on every interpolation step and is 0 exactly at step 0 |
| Easing.EaseIncreasing | src/main.cpp:699-702 | the eased factor strictly grows from one step to the next |
| Easing.Lerp | src/main.cpp:706-707 | one interpolation move, truncated to a byte, lands between the old value and the target, and does not move at factor 0 |
| Transition.StartTransition | src/main.cpp:691-694 | the fixture is transitioning from step 0; the store and every other fixture's counter and flag are unchanged |
| Transition.UpdateTransition | src/main.cpp:696-721 | each fixture in use advances by its own counter: slots interpolate while the counter is below 50, snap once after, and the fixture then stops; fixtures beyond the count are untouched |
| Transition.InterpolationTick | src/main.cpp:698-710 | on an interpolation tick the counter goes up by exactly one, each pending slot of the fixture ends between its old value and its target with the target kept, settled slots and fixtures beyond the count are untouched |
| Transition.Advance | src/main.cpp:698-710 | over any number of interpolation ticks a fixture keeps transitioning, its counter counts the ticks, and targets, pending flags and settled slots stay |
| Transition.StillActiveAfterFifty | src/main.cpp:698-711 | fifty calls after `startTransition` the fixture is still transitioning with its counter at 50 |
| Transition.Settles | src/main.cpp:691-721 | fifty interpolation calls and one more after `startTransition` leave every pending slot exactly at its target, nothing pending, and the fixture idle |
| Transition.UpdateKeepsInvariant | src/main.cpp:696-721 | the engine keeps every settled slot at its target and every counter at most 50 |
| Scenes.ChaseColor | src/main.cpp:666-679 | chase step k lights exactly one colour channel, red, green or blue for k = 0, 1, 2, at 255 and the other two at 0 |
| Scenes.BaseHue | src/main.cpp:646-647 | fixture f's hue, the base hue shifted by f / count and wrapped once, stays in [0, 1) |
| Scenes.NextHue | src/main.cpp:661-662 | the rainbow's base hue advances by 0.001 while that stays below 1 and is 0 once it would reach 1, so it stays in [0, 1) |
| Scenes.Retarget | src/main.cpp:653-659 | one fixture's colour slots get the new targets and become pending, current values stay, and an idle fixture starts transitioning at step 0 |
| Scenes.RetargetAll | src/main.cpp:645-660 | the generator's loop, one fixture after another, has exactly the effect of the slot-by-slot pass used by `UpdateScene` |
| Scenes.UpdateScene | src/main.cpp:641-689 | a generator tick keeps the state invariant, touches only the engine, hue and chase position, and does nothing when no scene runs, when overridden, or for an unknown scene number |
| Scenes.ChaseTargets | src/main.cpp:664-684 | a chase pass gives every colour slot of a fixture in use the target 255 or 0 as its channel is red, green or blue for (position + fixture) mod 3 |
| Scenes.ChaseTick | src/main.cpp:664-686 | a chase tick retargets the colour slots by (position + fixture) mod 3, marks them pending, keeps current values and all other slots, starts an idle fixture in use from step 0 and keeps the step of one under way, leaves the counters of fixtures past the count alone, and advances the position by one mod 3 |
| Scenes.ChaseRotates | src/main.cpp:664-686 | after the position advances, each fixture gets the colour the next fixture had: the chase moves one fixture per tick |
| Scenes.RainbowTick | src/main.cpp:644-663 | a rainbow tick retargets fixture f's colour slots to the colour of its shifted hue, marks them pending, keeps everything else, starts an idle fixture in use from step 0 and keeps the step of one under way, leaves the counters of fixtures past the count alone, and advances the base hue |
| Scenes.StartScene | src/main.cpp:740-747 | the scene is recorded and running, hue and position restart at 0, the override is cleared, fixture 0 restarts its transition, no slot changes |
| Scenes.ChaseFromStart | src/main.cpp:664-686 | the first chase tick after starting the chase paints fixture f red, green or blue as f mod 3 is 0, 1 or 2 |
| Scenes.StopScene | src/main.cpp:749-755 | no scene and nothing running, so the generator idles from then on; fixture 0 restarts its transition; pending slots and other fixtures' transitions stay |
| Scenes.ResetAll | src/main.cpp:159-173 | every slot of every fixture in use holds 0 with nothing pending, the scene stops, the override and dimmer level are cleared, transitions stay |
| Relay.Receive | src/main.cpp:411-413 | the datagram's bytes overwrite the start of the receive buffer and the bytes past it keep what earlier packets left |
| Relay.PrefixLeavesBuffer | src/main.cpp:411-415 | a datagram that is a prefix of the previous one leaves the buffer as it was, so the previous packet is accepted again |
| Relay.LengthAsWritten | src/main.cpp:417-418 | the length read from bytes 17-18 is at most 512, and is 512 exactly when the big-endian value reaches 512 |
| Relay.DecodeAsWritten | src/main.cpp:415-424 | a packet is accepted exactly when it has the Art-Net ID and the OpDmx opcode; then the frame is the start code, the bytes from offset 18 for the length read from bytes 17-18, zeros after, sent with length + 1 bytes, except that a length of 512 writes index 512 past the buffer |
| Relay.Decode | src/main.cpp:415-424 | the same decoder with the length read from bytes 16-17 into a 513-byte frame: every length up to 512 is relayed |
| Relay.EncodeArtDmx | src/main.cpp:415-421 | an ArtDmx packet carries the data from offset 18 and its length at bytes 16-17 |
| Relay.DecodeEncode | src/main.cpp:415-424 | round trip: whatever the buffer held before, an ArtDmx packet with data d is relayed as the start code, d and zeros, with \|d\| + 1 bytes sent |
| Relay.AsWrittenOverruns | src/main.cpp:417-421 | every ArtDmx packet whose length has a low byte of 2 or more makes the code as written write index 512 of its 512-byte buffer |
| Relay.AsWrittenMisreadsLength | src/main.cpp:417-422 | a full 512-slot universe is relayed by the code as written with its first slot value + 1 bytes, and by the corrected decoder with 513 |
| Frame.Fill | src/main.cpp:522-528 | the first k writes of the frame loop put slot idx at buffer index idx + 1 and leave every other byte |
| Frame.BuildFrame | src/main.cpp:522-533 | the frame is the start code 0, the current values of the fixtures in use in slot order, zeros after, sent with count × 8 + 1 bytes |
| Frame.FrameReadBack | src/main.cpp:523-527 | byte Slot(f, c) + 1 of the frame is that slot's current value for a fixture in use and 0 otherwise |
| Frame.FrameShowsCurrentOnly | src/main.cpp:526 | the frame depends only on current values: targets and pending flags never reach the wire |
| Frame.FillAsWritten | src/main.cpp:522-528 | on the declared 512-byte buffer the loop stays in bounds up to 511 writes and the 512th write is to index 512, past the end |
| Frame.BuildFrameAsWritten | src/main.cpp:522-533 | as written, fewer than 64 fixtures give the 512-byte buffer holding the start code, the current values in slot order and zeros, sent with count × 8 + 1 bytes; 64 fixtures write index 512 |
| Frame.AsWrittenAgreesBelowFull | src/main.cpp:522-533 | below 64 fixtures the frame as written equals the corrected frame minus its last byte; at 64 it overruns |
| Controller.WriteAll | src/main.cpp:208-222 | one channel of every fixture in use holds the value live; nothing else in the state changes |
| Controller.PaintAll | src/main.cpp:197-201 | the colour slots of every fixture in use hold the colour live; nothing else in the state changes |
| Controller.Dim | src/main.cpp:202-207 | a new dimmer level is remembered and makes the dimmer slot of every fixture in use live at that level, every other slot, the transitions and the rest of the state unchanged; the level already applied changes nothing |
| Controller.Apply | src/main.cpp:192-235 | every web-socket command keeps the state invariant, in particular the fixture count in 1..64 |
| Controller.Press | src/main.cpp:434-483 | every touch control keeps the state invariant and leaves relay mode, timestamps and buffers alone |
| Controller.OverrideAfterCommand | src/main.cpp:192-232 | the override is set by colour, white, function and speed writes, cleared by a scene start or a reset, and kept by every other command, dimmer and strobe included |
| Controller.FixtureCountAfterCommand | src/main.cpp:233-235 | the fixture count becomes the requested count exactly when it is in 1..64, and no other command changes it |
| Controller.FixtureCountAfterTouch | src/main.cpp:444-457 | + adds one fixture below 64, - removes one above 1, and no other control changes the count |
| Controller.PlusMinusInverse | src/main.cpp:444-457 | + then - restores the state when below 64 fixtures, and - then + does when above 1 |
| Controller.OverrideSuppressesScene | src/main.cpp:641-642 | while the override holds, no command but a scene start or reset lifts it and the generator does nothing |
| Controller.DimmerIdempotent | src/main.cpp:202-207 | the same dimmer level applied twice is applied once, and the dimmer slider agrees with the dimmer command on every byte level |
| Controller.ChannelCommand | src/main.cpp:208-222 | a white, strobe, function or speed command sets that channel of every fixture in use live and leaves every other slot, the transitions and the scene |
| Scheduler.Elapsed | src/main.cpp:495 | the elapsed time on the 32-bit millisecond counter is the true difference, also across its wrap |
| Scheduler.AsSigned | src/main.cpp:516 | an elapsed time stored in an int is negative exactly when it is 2^31 or more |
| Scheduler.AsUnsigned | src/main.cpp:500 | an int compared with the elapsed time is converted modulo 2^32 |
| Scheduler.WrapI32 | src/main.cpp:490 | a product stored back in an int keeps its value when it fits and its low 32 bits otherwise |
| Scheduler.EffectiveSpeed | src/main.cpp:488-491 | the scene cadence is the transition speed, tripled for the chase |
| Scheduler.DmxDueIff | src/main.cpp:515-517 | a frame is due exactly when 25 ms to 2^31 - 1 ms have elapsed |
| Scheduler.ChaseCadence | src/main.cpp:488-507 | the chase steps once three times the transition speed has elapsed |
| Scheduler.NegativeSpeedStalls | src/main.cpp:488-504 | an `int` interval below 0 is compared as 2^32 + interval, so with a negative transition speed the rainbow's scene-timestamp refresh and any scene other than the chase wait at least 2^31 ms; the chase, whose tripled speed still fits an `int`, waits 2^32 + 3 × speed ms |
| Scheduler.NegativeChaseWraps | src/main.cpp:488-491 | a negative speed whose tripling overflows wraps to a positive cadence: at -10^9 the chase steps every 1 294 967 296 ms |
| Scheduler.SceneCadence | src/main.cpp:486-509 | the generator runs when its cadence is due (rainbow every 10 ms, other scenes at the effective speed, never without a scene); the rainbow refreshes its own timestamp when it ticks and the scene timestamp whenever the transition speed has elapsed, other scenes refresh the scene timestamp when they tick; nothing else changes |
| Scheduler.ScenesSpaced | src/main.cpp:493-507 | after a scene block that ran the generator, one less than the cadence later (10 ms for the rainbow, the effective speed otherwise) does not run it, and the channels, transitions, hue and chase position stay |
| Scheduler.RelayStep | src/main.cpp:410-430 | relay mode reads a non-empty datagram into the buffer; an ArtDmx packet is relayed as the start code, the data from offset 18 and zeros, with length + 1 bytes — as written with the length from bytes 17-18 and a length of 512 overrunning the 512-byte buffer, corrected with the length from bytes 16-17; nothing else in the state changes |
| Scheduler.Animate | src/main.cpp:486-512 | the scene block then one transition call: only the channel store and transitions, the hue, the chase position and the two scene timestamps change; the mode, receive buffer, frame time, fixture count, scene, override and speeds stay |
| Scheduler.Emit | src/main.cpp:514-537 | exactly when the frame cadence is due, the frame of the current values of the fixtures in use is sent with count × 8 + 1 bytes and its time recorded; as written 64 fixtures overrun the 512-byte buffer instead; otherwise nothing changes |
| Scheduler.Step | src/main.cpp:400-540 | an iteration keeps the invariant, never changes the mode, in relay mode only relays, and otherwise sends, exactly when the frame cadence is due (25 ms up to 2^31 - 1 ms elapsed, see Scheduler.DmxDueIff), the frame of the resulting current values (as written, the overrun at 64 fixtures); whatever it sends is well formed |
| Scheduler.FramesSpaced | src/main.cpp:514-537 | in normal (non-relay) mode, after an iteration that sent a frame, an iteration less than 25 ms later sends none |
| Scheduler.RelayKeepsLights | src/main.cpp:410-430 | in relay mode an iteration leaves the channel store, transitions, scene, count and frame time as they were |
| Scheduler.Run | src/main.cpp:175-266 | any interleaving of web-socket messages and loop iterations keeps the invariant and the fixture count in 1..64, and hands the driver no more packets than there were events |
| Scheduler.SentFramesWellFormed | src/main.cpp:410-533 | every packet sent has the NULL start code and a size from 1 to its buffer's size (512 as written, 513 corrected); corrected, nothing is ever written past the buffer, and as written the only such write is to index 512 |
| Scheduler.RunStateAgrees | src/main.cpp:420-522 | the output buffer is cleared before every use, so, provided the write past it clobbers nothing modelled, the lights go through the same states whichever reading of the output path is taken |
| Scheduler.StepStateAgrees | src/main.cpp:410-537 | one iteration leaves the same state under both readings of the output path, with the same proviso |
| Scheduler.RelayOverruns | src/main.cpp:417-421 | in relay mode an ArtDmx packet whose length has a low byte of 2 or more makes the program write index 512 of its buffer, while the corrected relay sends the start code, the data and zeros with \|data\| + 1 bytes |
| Scheduler.FullRigOverruns | src/main.cpp:520-531 | with 64 fixtures in use every due frame as written writes index 512, and corrected is sent with all 513 bytes |

## Left out

- Display drawing (`drawButtons`, `drawSliders`), touch hit-testing and the slider pixel arithmetic: UI; a touch is given as the control it hit, sliders as their value before clamping.
- Wi-Fi and access-point setup, the web server, JSON parsing and `notifyClients`: network I/O; a message is given as a decoded `Controller.Command`, and a JSON value out of a byte's range is taken as already converted.
- The `wifiConfig` command: it stores credentials and restarts the device.
- `Preferences` load and save, and `setup`: persistence and start-up; the `saveSettings` command changes no state here, and `Rig.Init` is the state before `setup` restores settings.
- `dmx_write`, `dmx_send`, `dmx_wait_sent`, `parsePacket`, `read`, `millis` and `delay`: driver and clock calls; the clock is a parameter, the sent packet is the output of an iteration.
- `lastArtnetPacket`, `lastNotify` and `lastDMXInterval`: recorded by the program but never read by the lighting engine.
- Easing.Ease: computed on exact reals, not IEEE `float` with `pow`; a factor that rounds differently by one unit in the last place can move a truncated byte by one.
- Scenes.RainbowTick: the HSV conversion and its scaling to bytes are a parameter, and `sceneHue` accumulates exactly rather than in `float`.
- Scheduler.RunStateAgrees, Scheduler.StepStateAgrees, Scheduler.RelayKeepsLights: the write to index 512 of `dmxData` (relay copy and 64-fixture frame) is undefined behaviour and lands on whatever object follows the array, possibly another global such as `lastSceneUpdate`; the model records it as an `Overrun` outcome, assumes it lands outside every modelled global, and continues the iteration as if nothing was overwritten.
- Scheduler.WrapI32: `effectiveSpeed *= 3` on an `int` that does not fit is undefined behaviour in C++; the model takes the two's-complement wrap a 32-bit target produces, which the language does not promise.
- Web-socket concurrency: messages run on another task in the program; here each is atomic between loop iterations.
- Out-of-range fixture indices for `startTransition`: every caller passes a fixture below 64, so the model requires it.

## Findings

| source | as written | input that shows it | evidently intended | confidence | as-written member | corrected member |
|---|---|---|---|---|---|---|
| src/main.cpp:417 | the ArtDmx length is read from bytes 17 and 18 | a full 512-slot universe: the length read is its first slot's value, so 1 to 256 bytes are sent instead of 513 (Relay.AsWrittenMisreadsLength) | the length read from LengthHi and Length, bytes 16 and 17 of ArtDmx | not executed | Relay.DecodeAsWritten | Relay.Decode |
| src/main.cpp:420-421 | a length of 512 is copied to index 1 onward of the 512-byte `dmxData` | any ArtDmx packet whose length has a low byte of 2 or more, such as a 24-slot universe: index 512 is written past the buffer (Relay.AsWrittenOverruns, Scheduler.RelayOverruns) | an output buffer of 513 bytes, the start code and 512 slots | not executed | Relay.DecodeAsWritten | Relay.Decode |
| src/main.cpp:523-531 | the frame loop writes `dmxData[idx + 1]` for idx up to fixtureCount × 8 - 1 | 64 fixtures: index 512 is written past the 512-byte buffer and 513 bytes are sent from it (Frame.AsWrittenAgreesBelowFull, Scheduler.FullRigOverruns) | an output buffer of 513 bytes | not executed | Frame.BuildFrameAsWritten | Frame.BuildFrame |

=== FILE: controller.dfy ===
/** The two control surfaces: web-socket commands (one JSON message each)
    and the touch screen (one pressed control per loop iteration). Both end
    in direct writes, scene changes and fixture-count changes. */
module Controller {
  import opened Dmx
  import opened Store
  import opened Transition
  import opened Rig
  import opened Scenes

  /** A decoded web-socket message: the first key the handler recognises,
      with its value already converted as the handler converts it. */
  datatype Command =
    | SetColor(color: Rgb)
    | SetDimmer(level: byte)
    | SetWhite(value: byte)
    | SetStrobe(value: byte)
    | SetFunction(value: byte)
    | SetSpeed(value: byte)
    | SetTransitionSpeed(ms: i32)
    | Start(kind: i32)
    | Stop
    | Reset
    | SetFixtureCount(count: i32)
    | SaveSettings
    | SetPassthrough(on: bool)
    /** Invalid JSON, or no key the handler knows. */
    | Ignored

  /** What the touch handler does for the control under the finger. The
      sliders carry the value the pixel position maps to, before clamping. */
  datatype Touch =
    | RainbowButton
    | ChaseButton
    | ResetButton
    | RedButton
    | GreenButton
    | BlueButton
    | PlusButton
    | MinusButton
    | DimmerSlider(level: int)
    | SpeedSlider(speed: int)

  const MinSpeed: int := 10
  const MaxSpeed: int := 1000

  function Clamp(v: int, lo: int, hi: int): (r: int)
    requires lo <= hi
    ensures lo <= r <= hi
    ensures lo <= v <= hi ==> r == v
  {
    if v < lo then lo else if v > hi then hi else v
  }

  /** A direct write of `value` to `channel` of every fixture in use. */
  function WriteAll(s: Lights, channel: int, value: byte): (r: Lights)
    requires Valid(s)
    ensures Valid(r)
    ensures forall i | 0 <= i < MaxChannels ::
      r.engine.channels[i]
      == if FixtureOf(i) < s.fixtureCount && ChannelOf(i) == channel then Steady(value) else s.engine.channels[i]
    ensures r == s.(engine := r.engine)
    ensures r.engine == s.engine.(channels := r.engine.channels)
  {
    s.(engine := s.engine.(channels := SetAll(s.engine.channels, channel, value, s.fixtureCount)))
  }

  /** A colour written directly to every fixture in use. */
  function PaintAll(s: Lights, color: Rgb): (r: Lights)
    requires Valid(s)
    ensures Valid(r)
    ensures forall i | 0 <= i < MaxChannels ::
      r.engine.channels[i]
      == if FixtureOf(i) < s.fixtureCount && IsColorChannel(ChannelOf(i))
         then Steady(Component(color, ChannelOf(i))) else s.engine.channels[i]
    ensures r == s.(engine := r.engine)
    ensures r.engine == s.engine.(channels := r.engine.channels)
  {
    s.(engine := s.engine.(channels := ColorAll(s.engine.channels, color, s.fixtureCount)))
  }

  /** The dimmer controls: a new level is remembered and written to every
      fixture in use; the level already applied changes nothing. */
  function Dim(s: Lights, level: byte): (r: Lights)
    requires Valid(s)
    ensures Valid(r)
    ensures r.dimmerValue == level
    ensures s.dimmerValue == level ==> r == s
    ensures forall i | 0 <= i < MaxChannels ::
      r.engine.channels[i]
      == if s.dimmerValue != level && FixtureOf(i) < s.fixtureCount && ChannelOf(i) == ChannelDimmer
         then Steady(level) else s.engine.channels[i]
    ensures r == s.(engine := r.engine, dimmerValue := level)
    ensures r.engine == s.engine.(channels := r.engine.channels)
  {
    if s.dimmerValue != level then WriteAll(s, ChannelDimmer, level).(dimmerValue := level) else s
  }

  /** `onWsEvent` for one message. */
  function Apply(s: Lights, cmd: Command): (r: Lights)
    requires Valid(s)
    ensures Valid(r)
  {
    match cmd
    case SetColor(color) => PaintAll(s, color).(manualOverride := true)
    case SetDimmer(level) => Dim(s, level)
    case SetWhite(value) => WriteAll(s, ChannelWhite, value).(manualOverride := true)
    case SetStrobe(value) => WriteAll(s, ChannelStrobe, value)
    case SetFunction(value) => WriteAll(s, ChannelFunction, value).(manualOverride := true)
    case SetSpeed(value) => WriteAll(s, ChannelSpeed, value).(manualOverride := true)
    case SetTransitionSpeed(ms) => s.(transitionSpeed := ms)
    case Start(kind) => StartScene(s, kind)
    case Stop => StopScene(s)
    case Reset => ResetAll(s)
    case SetFixtureCount(count) =>
      if 1 <= count <= MaxFixtures then s.(fixtureCount := count) else s
    case SaveSettings => s
    case SetPassthrough(on) => s.(passthrough := on)
    case Ignored => s
  }

  /** The touch handler for one pressed control. */
  function Press(s: Lights, t: Touch): (r: Lights)
    requires Valid(s)
    ensures Valid(r)
    ensures r.passthrough == s.passthrough && r.lastDmxUpdate == s.lastDmxUpdate
      && r.lastSceneUpdate == s.lastSceneUpdate && r.lastRainbowUpdate == s.lastRainbowUpdate
      && r.artnet == s.artnet
  {
    match t
    case RainbowButton => StartScene(s, RainbowScene)
    case ChaseButton => StartScene(s, ChaseScene)
    case ResetButton => ResetAll(s)
    case RedButton => PaintAll(s, Rgb(255, 0, 0)).(manualOverride := true)
    case GreenButton => PaintAll(s, Rgb(0, 255, 0)).(manualOverride := true)
    case BlueButton => PaintAll(s, Rgb(0, 0, 255)).(manualOverride := true)
    case PlusButton => if s.fixtureCount < MaxFixtures then s.(fixtureCount := s.fixtureCount + 1) else s
    case MinusButton => if s.fixtureCount > 1 then s.(fixtureCount := s.fixtureCount - 1) else s
    case DimmerSlider(level) => Dim(s, Clamp(level, 0, 255))
    case SpeedSlider(speed) =>
      var v := Clamp(speed, MinSpeed, MaxSpeed);
      if s.speedValue != v then s.(speedValue := v, transitionSpeed := v) else s
  }

  /** The commands that take the rig into manual control. */
  predicate SetsOverride(cmd: Command) {
    cmd.SetColor? || cmd.SetWhite? || cmd.SetFunction? || cmd.SetSpeed?
  }

  /** The commands that hand control back to the scene generator. */
  predicate ClearsOverride(cmd: Command) {
    cmd.Start? || cmd.Reset?
  }

  /** The manual override after a command: set by colour, white, function
      and speed writes, cleared by starting a scene or resetting, and kept
      by every other command, the dimmer and strobe writes included. */
  lemma OverrideAfterCommand(s: Lights, cmd: Command)
    requires Valid(s)
    ensures Apply(s, cmd).manualOverride == (SetsOverride(cmd) || (s.manualOverride && !ClearsOverride(cmd)))
  {
  }

  /** The fixture count after a command: the requested count when it is
      between 1 and 64, else unchanged; only that command changes it. */
  lemma FixtureCountAfterCommand(s: Lights, cmd: Command)
    requires Valid(s)
    ensures Apply(s, cmd).fixtureCount
         == if cmd.SetFixtureCount? && 1 <= cmd.count <= MaxFixtures then cmd.count else s.fixtureCount
  {
  }

  /** The fixture count after a touch: + adds one below 64, - removes one
      above 1, and nothing else changes it. */
  lemma FixtureCountAfterTouch(s: Lights, t: Touch)
    requires Valid(s)
    ensures Press(s, t).fixtureCount
         == if t.PlusButton? && s.fixtureCount < MaxFixtures then s.fixtureCount + 1
            else if t.MinusButton? && s.fixtureCount > 1 then s.fixtureCount - 1
            else s.fixtureCount
  {
  }

  /** + then - restores the state when there is room for one more fixture,
      and - then + does when there is more than one. */
  lemma PlusMinusInverse(s: Lights)
    requires Valid(s)
    ensures s.fixtureCount < MaxFixtures ==> Press(Press(s, PlusButton), MinusButton) == s
    ensures s.fixtureCount > 1 ==> Press(Press(s, MinusButton), PlusButton) == s
  {
  }

  /** While the override holds, the generator does nothing; and no command
      but a scene start or a reset lifts it. */
  lemma OverrideSuppressesScene(s: Lights, cmd: Command, hsv: real -> Rgb)
    requires Valid(s) && s.manualOverride && !ClearsOverride(cmd)
    ensures Apply(s, cmd).manualOverride
    ensures UpdateScene(Apply(s, cmd), hsv) == Apply(s, cmd)
  {
    OverrideAfterCommand(s, cmd);
  }

  /** Applying the same dimmer level twice is applying it once, and the
      touch slider and the web-socket command agree on a level in range. */
  lemma DimmerIdempotent(s: Lights, level: byte)
    requires Valid(s)
    ensures Apply(Apply(s, SetDimmer(level)), SetDimmer(level)) == Apply(s, SetDimmer(level))
    ensures Press(s, DimmerSlider(level)) == Apply(s, SetDimmer(level))
  {
  }

  /** A web-socket write of one channel: the channel of every fixture in
      use holds the value live with nothing pending, and every other slot,
      the transitions and the scene stay as they were. */
  lemma ChannelCommand(s: Lights, cmd: Command)
    requires Valid(s) && (cmd.SetWhite? || cmd.SetStrobe? || cmd.SetFunction? || cmd.SetSpeed?)
    ensures var channel := match cmd
        case SetWhite(_) => ChannelWhite
        case SetStrobe(_) => ChannelStrobe
        case SetFunction(_) => ChannelFunction
        case SetSpeed(_) => ChannelSpeed;
      var r := Apply(s, cmd);
      && (forall i | 0 <= i < MaxChannels ::
            r.engine.channels[i]
            == if FixtureOf(i) < s.fixtureCount && ChannelOf(i) == channel then Steady(cmd.value)
               else s.engine.channels[i])
      && r.engine.steps == s.engine.steps && r.engine.active == s.engine.active
      && r.scene == s.scene && r.running == s.running
  {
  }
}

=== FILE: dmx.dfy ===
/** Shared vocabulary of the lighting controller: machine-word types, the
    fixed sizes of the rig and its buffers, and the channel layout of one
    fixture (Dimmer, Red, Green, Blue, White, Strobe, Function, Speed). */
module Dmx {

  type byte = x: int | 0 <= x < 0x100
  /** `unsigned long` on the controller: a 32-bit millisecond counter. */
  type u32 = x: int | 0 <= x < 0x1_0000_0000
  /** `int` on the controller. */
  type i32 = x: int | -0x8000_0000 <= x < 0x8000_0000

  const MaxFixtures: int := 64
  const ChannelsPerFixture: int := 8
  /** Number of channel states, one per (fixture, channel) pair. */
  const MaxChannels: int := 512
  /** Interpolation steps of one transition. */
  const TransitionSteps: int := 50

  /** The output buffer as the program declares it. */
  const DeclaredDmxSize: int := 512
  /** A DMX512 frame: the NULL start code followed by 512 slots. */
  const FrameSize: int := 513
  /** Receive buffer of the Art-Net relay. */
  const ArtnetBufferSize: int := 530

  const ChannelDimmer: int := 1
  const ChannelRed: int := 2
  const ChannelGreen: int := 3
  const ChannelBlue: int := 4
  const ChannelWhite: int := 5
  const ChannelStrobe: int := 6
  const ChannelFunction: int := 7
  const ChannelSpeed: int := 8

  datatype Option<+T> = None | Some(value: T)

  /** What goes to the DMX driver: the buffer and how many of its bytes
      (start code included) are sent. */
  datatype Packet = Packet(frame: seq<byte>, size: int)

  /** The outcome of filling the 512-byte buffer as the program declares
      it: the packet, or the first index written past its end. */
  datatype Emission = Sent(packet: Packet) | Overrun(index: int)

  function Min(a: int, b: int): int { if a <= b then a else b }

  function Zeros(k: nat): (r: seq<byte>)
    ensures |r| == k
    ensures forall i | 0 <= i < k :: r[i] == 0
  {
    seq(k, _ => 0)
  }
}

=== FILE: easing.dfy ===
/** The quadratic ease-in-out of the transition engine and the per-tick
    move of one byte toward its target. The program computes in `float`
    and `pow`; here the factor is an exact real. */
module Easing {
  import opened Dmx

  /** Fraction of the transition done after `step` steps. */
  function Progress(step: nat): real {
    step as real / TransitionSteps as real
  }

  lemma SquareBelow(x: real, bound: real)
    requires 0.0 <= x <= bound
    ensures 0.0 <= x * x <= bound * x
  {
  }

  /** The eased factor at `step`: 2p^2 in the first half, 1 - (2 - 2p)^2 / 2
      in the second. It starts at 0 and stays below 1 on every interpolation
      step, so no interpolation step reaches the target on its own. */
  function Ease(step: nat): (e: real)
    requires step < TransitionSteps
    ensures 0.0 <= e < 1.0
    ensures e == 0.0 <==> step == 0
  {
    var p := Progress(step);
    if p < 0.5 then
      SquareBelow(p, 0.5);
      assert p > 0.0 ==> p * p > 0.0;
      2.0 * p * p
    else
      var q := -2.0 * p + 2.0;
      assert 0.0 < q <= 1.0;
      SquareBelow(q, 1.0);
      assert q * q > 0.0;
      1.0 - q * q / 2.0
  }

  /** The eased factor grows with every step. */
  lemma EaseIncreasing(step: nat)
    requires step + 1 < TransitionSteps
    ensures Ease(step) < Ease(step + 1)
  {
    var p, p' := Progress(step), Progress(step + 1);
    assert p' == p + 0.02;
    if p' < 0.5 {
      assert p * p < p' * p' by {
        assert p' * p' == p * p + 0.04 * p + 0.0004;
      }
    } else if p < 0.5 {
      SquareBelow(p, 0.5);
      SquareBelow(-2.0 * p' + 2.0, 1.0);
    } else {
      var q, q' := -2.0 * p + 2.0, -2.0 * p' + 2.0;
      assert q == q' + 0.04;
      assert q * q == q' * q' + 0.08 * q' + 0.0016;
      assert q' > 0.0;
    }
  }

  lemma ScaledDeltaBetween(a: int, b: int, e: real)
    requires 0.0 <= e <= 1.0
    ensures a <= b ==> a as real <= a as real + (b - a) as real * e <= b as real
    ensures b <= a ==> b as real <= a as real + (b - a) as real * e <= a as real
  {
    var d := (b - a) as real;
    if d >= 0.0 {
      assert d * e <= d by { assert d * (1.0 - e) >= 0.0; }
    } else {
      assert d * e >= d by { assert (-d) * (1.0 - e) >= 0.0; }
    }
  }

  /** One interpolation step: `current + (target - current) * e`, truncated
      to a byte. The result lies between the old value and the target. */
  function Lerp(current: byte, target: byte, e: real): (v: byte)
    requires 0.0 <= e < 1.0
    ensures current <= target ==> current <= v <= target
    ensures target <= current ==> target <= v <= current
    ensures e == 0.0 ==> v == current
  {
    var x := current as real + (target - current) as real * e;
    ScaledDeltaBetween(current, target, e);
    x.Floor
  }
}

=== FILE: frame.dfy ===
/** Frame serialisation of the normal loop: the current value of every slot
    of the fixtures in use, after the NULL start code, in slot order. */
module Frame {
  import opened Dmx
  import opened Store

  /** The first `k` iterations of the frame-build loop on `buffer`: slot
      `idx` goes to index `idx + 1`. The program's nested loop over
      fixtures and channels visits `idx = f * 8 + i` in this same order. */
  function Fill(buffer: seq<byte>, ch: seq<ChannelState>, k: int): (r: seq<byte>)
    requires |buffer| == FrameSize && |ch| == MaxChannels && 0 <= k <= MaxChannels
    ensures |r| == FrameSize
    ensures forall j | 0 <= j < FrameSize :: r[j] == if 1 <= j <= k then ch[j - 1].current else buffer[j]
    decreases k
  {
    if k == 0 then buffer
    else Fill(buffer, ch, k - 1)[k := ch[k - 1].current]
  }

  /** The frame sent for `count` fixtures: start code 0, the current values
      of slots `0 .. count * 8 - 1`, zeros after them; `count * 8 + 1` bytes
      are sent. */
  function BuildFrame(ch: seq<ChannelState>, count: int): (p: Packet)
    requires |ch| == MaxChannels && 1 <= count <= MaxFixtures
    ensures |p.frame| == FrameSize && p.size == count * ChannelsPerFixture + 1
    ensures p.frame[0] == 0
    ensures forall idx | 0 <= idx < count * ChannelsPerFixture :: p.frame[idx + 1] == ch[idx].current
    ensures forall j | count * ChannelsPerFixture < j < FrameSize :: p.frame[j] == 0
  {
    Packet(Fill(Zeros(FrameSize), ch, count * ChannelsPerFixture), count * ChannelsPerFixture + 1)
  }

  /** Reading the frame back: byte `Slot(f, channel) + 1` of the frame is
      that slot's current value for fixtures in use, and 0 otherwise. */
  lemma FrameReadBack(ch: seq<ChannelState>, count: int, f: int, channel: int)
    requires |ch| == MaxChannels && 1 <= count <= MaxFixtures && IsAddress(f, channel)
    ensures BuildFrame(ch, count).frame[Slot(f, channel) + 1] == if f < count then ch[Slot(f, channel)].current else 0
  {
  }

  /** The frame depends on current values only: targets and pending flags
      never reach the wire. */
  lemma FrameShowsCurrentOnly(ch1: seq<ChannelState>, ch2: seq<ChannelState>, count: int)
    requires |ch1| == MaxChannels && |ch2| == MaxChannels && 1 <= count <= MaxFixtures
    requires forall i | 0 <= i < MaxChannels :: ch1[i].current == ch2[i].current
    ensures BuildFrame(ch1, count) == BuildFrame(ch2, count)
  {
    var p1, p2 := BuildFrame(ch1, count), BuildFrame(ch2, count);
    assert p1.frame == p2.frame by {
      assert forall j | 0 <= j < FrameSize :: p1.frame[j] == p2.frame[j] by {
        forall j | 0 <= j < FrameSize ensures p1.frame[j] == p2.frame[j] {
          if 1 <= j <= count * ChannelsPerFixture {
            assert p1.frame[(j - 1) + 1] == ch1[j - 1].current;
          }
        }
      }
    }
  }

  /** How far the frame-build loop as written gets: the buffer it has
      filled, or the first index it writes past the buffer's end. */
  datatype Filling = Filled(buffer: seq<byte>) | PastEnd(index: int)

  /** The frame-build loop exactly as written, on the 512-byte buffer the
      program declares: the `k`-th write goes to index `k`, and the first
      write past the end is reported. */
  function FillAsWritten(buffer: seq<byte>, ch: seq<ChannelState>, k: int): (r: Filling)
    requires |buffer| == DeclaredDmxSize && |ch| == MaxChannels && 0 <= k <= MaxChannels
    ensures k < DeclaredDmxSize ==>
      && r.Filled? && |r.buffer| == DeclaredDmxSize
      && forall j | 0 <= j < DeclaredDmxSize :: r.buffer[j] == if 1 <= j <= k then ch[j - 1].current else buffer[j]
    ensures k >= DeclaredDmxSize ==> r == PastEnd(DeclaredDmxSize)
    decreases k
  {
    if k == 0 then Filled(buffer)
    else
      match FillAsWritten(buffer, ch, k - 1)
      case PastEnd(index) => PastEnd(index)
      case Filled(b) =>
        if k < |b| then Filled(b[k := ch[k - 1].current]) else PastEnd(k)
  }

  /** Frame building as written: below 64 fixtures the 512-byte buffer with
      the start code, the current values of the fixtures in use and zeros,
      sent with `count * 8 + 1` bytes; with 64 fixtures the index written
      past the buffer. */
  function BuildFrameAsWritten(ch: seq<ChannelState>, count: int): (r: Emission)
    requires |ch| == MaxChannels && 1 <= count <= MaxFixtures
    ensures count < MaxFixtures ==>
      && r.Sent? && |r.packet.frame| == DeclaredDmxSize && r.packet.size == count * ChannelsPerFixture + 1
      && r.packet.frame[0] == 0
      && (forall idx | 0 <= idx < count * ChannelsPerFixture :: r.packet.frame[idx + 1] == ch[idx].current)
      && (forall j | count * ChannelsPerFixture < j < DeclaredDmxSize :: r.packet.frame[j] == 0)
    ensures count == MaxFixtures ==> r == Overrun(DeclaredDmxSize)
  {
    match FillAsWritten(Zeros(DeclaredDmxSize), ch, count * ChannelsPerFixture)
    case PastEnd(index) => Overrun(index)
    case Filled(b) => Sent(Packet(b, count * ChannelsPerFixture + 1))
  }

  /** Below 64 fixtures the program's frame is the corrected frame without
      its last byte (which is 0 there); with all 64 fixtures in use the
      program writes index 512 of its 512-byte buffer. */
  lemma AsWrittenAgreesBelowFull(ch: seq<ChannelState>, count: int)
    requires |ch| == MaxChannels && 1 <= count <= MaxFixtures
    ensures count < MaxFixtures ==>
      BuildFrameAsWritten(ch, count)
      == Sent(Packet(BuildFrame(ch, count).frame[..DeclaredDmxSize], BuildFrame(ch, count).size))
    ensures count == MaxFixtures ==> BuildFrameAsWritten(ch, count) == Overrun(DeclaredDmxSize)
  {
    if count < MaxFixtures {
      var a := BuildFrameAsWritten(ch, count).packet.frame;
      var c := BuildFrame(ch, count).frame;
      assert a == c[..DeclaredDmxSize] by {
        forall j | 0 <= j < DeclaredDmxSize ensures a[j] == c[j] {
          if 1 <= j <= count * ChannelsPerFixture {
            assert c[(j - 1) + 1] == ch[j - 1].current;
          }
        }
      }
    }
  }
}

=== FILE: relay.dfy ===
/** The Art-Net relay of the pass-through mode: the receive buffer and the
    ArtDmx decoder that turns a received packet into a DMX512 frame.

    An ArtDmx packet (Art-Net 4) is laid out as: the ID "Art-Net" and a NUL
    (bytes 0-7), OpCode 0x5000 low byte first (8-9), protocol version high
    and low (10-11), Sequence (12), Physical (13), SubUni (14), Net (15),
    LengthHi (16), Length (17), then the data from byte 18. */
module Relay {
  import opened Dmx

  const ArtNetId: seq<byte> := [0x41, 0x72, 0x74, 0x2D, 0x4E, 0x65, 0x74, 0x00]
  const OpDmxLow: byte := 0x00
  const OpDmxHigh: byte := 0x50
  const ProtocolVersion: byte := 14
  /** Offset of the first data byte. */
  const DataOffset: int := 18
  /** The relay never copies more than one universe. */
  const MaxDmxLength: int := 512

  /** `artnetUDP.read(artnetBuffer, 530)`: the datagram's first 530 bytes
      overwrite the start of the buffer, and the bytes past its end keep
      whatever earlier packets left there. */
  function Receive(buffer: seq<byte>, datagram: seq<byte>): (r: seq<byte>)
    requires |buffer| == ArtnetBufferSize
    ensures |r| == ArtnetBufferSize
    ensures forall i | 0 <= i < ArtnetBufferSize :: r[i] == if i < |datagram| then datagram[i] else buffer[i]
  {
    var n := Min(|datagram|, ArtnetBufferSize);
    datagram[..n] + buffer[n..]
  }

  /** The header test: the Art-Net ID and the OpDmx opcode. */
  predicate IsArtDmx(b: seq<byte>)
    requires |b| == ArtnetBufferSize
  {
    b[..8] == ArtNetId && b[8] == OpDmxLow && b[9] == OpDmxHigh
  }

  /** `size` bytes of output: the NULL start code, `len` bytes of the
      buffer from offset 18, and zeros after them. */
  function Payload(b: seq<byte>, len: int, size: int): (r: seq<byte>)
    requires |b| == ArtnetBufferSize && 0 <= len <= MaxDmxLength && len < size
    ensures |r| == size && r[0] == 0
    ensures forall j | 1 <= j <= len :: r[j] == b[DataOffset + j - 1]
    ensures forall j | len < j < size :: r[j] == 0
  {
    [0] + b[DataOffset..DataOffset + len] + Zeros(size - 1 - len)
  }

  /** The length as the program reads it: bytes 17 and 18 as a big-endian
      number, clamped to 512. */
  function LengthAsWritten(b: seq<byte>): (len: int)
    requires |b| == ArtnetBufferSize
    ensures 0 <= len <= MaxDmxLength
    ensures len == MaxDmxLength <==> b[17] as int * 256 + b[18] as int >= MaxDmxLength
  {
    Min(b[17] as int * 256 + b[18] as int, MaxDmxLength)
  }

  /** The decode block exactly as written: the output buffer has the 512
      bytes it is declared with, so copying a full universe to index 1
      onward writes index 512, past its end. An unrecognised packet gives
      `None` and the output buffer keeps its contents. */
  function DecodeAsWritten(b: seq<byte>): (r: Option<Emission>)
    requires |b| == ArtnetBufferSize
    ensures r.None? <==> !IsArtDmx(b)
    ensures r.Some? ==>
      var len := Min(b[17] as int * 256 + b[18] as int, MaxDmxLength);
      if len == MaxDmxLength then r.value == Overrun(DeclaredDmxSize)
      else && r.value.Sent?
           && |r.value.packet.frame| == DeclaredDmxSize && r.value.packet.size == len + 1
           && r.value.packet.frame[0] == 0
           && (forall j | 1 <= j <= len :: r.value.packet.frame[j] == b[DataOffset + j - 1])
           && (forall j | len < j < DeclaredDmxSize :: r.value.packet.frame[j] == 0)
  {
    if !IsArtDmx(b) then None
    else
      var len := LengthAsWritten(b);
      if len + 1 > DeclaredDmxSize then Some(Overrun(DeclaredDmxSize))
      else Some(Sent(Packet(Payload(b, len, DeclaredDmxSize), len + 1)))
  }

  /** The length where ArtDmx puts it: LengthHi at byte 16, Length at 17. */
  function Length(b: seq<byte>): (len: int)
    requires |b| == ArtnetBufferSize
    ensures 0 <= len <= MaxDmxLength
  {
    Min(b[16] as int * 256 + b[17] as int, MaxDmxLength)
  }

  /** The decoder with the length read from bytes 16-17 and an output
      buffer of a whole DMX512 frame (start code and 512 slots), so every
      length up to 512 fits. */
  function Decode(b: seq<byte>): (r: Option<Packet>)
    requires |b| == ArtnetBufferSize
    ensures r.None? <==> !IsArtDmx(b)
    ensures r.Some? ==>
      var len := Min(b[16] as int * 256 + b[17] as int, MaxDmxLength);
      && |r.value.frame| == FrameSize && r.value.size == len + 1
      && r.value.frame[0] == 0
      && (forall j | 1 <= j <= len :: r.value.frame[j] == b[DataOffset + j - 1])
      && (forall j | len < j < FrameSize :: r.value.frame[j] == 0)
  {
    if !IsArtDmx(b) then None
    else
      var len := Length(b);
      Some(Packet(Payload(b, len, FrameSize), len + 1))
  }

  /** An ArtDmx packet carrying `data`, the inverse of `Decode`. */
  function EncodeArtDmx(sequence: byte, physical: byte, subUni: byte, net: byte, data: seq<byte>): (p: seq<byte>)
    requires |data| <= MaxDmxLength
    ensures |p| == DataOffset + |data| && p[DataOffset..] == data
    ensures p[16] as int * 256 + p[17] as int == |data|
  {
    ArtNetId + [OpDmxLow, OpDmxHigh, 0, ProtocolVersion, sequence, physical, subUni, net,
                |data| / 256, |data| % 256] + data
  }

  lemma EncodedHeader(sequence: byte, physical: byte, subUni: byte, net: byte, data: seq<byte>, buffer: seq<byte>)
    requires |data| <= MaxDmxLength && |buffer| == ArtnetBufferSize
    ensures var b := Receive(buffer, EncodeArtDmx(sequence, physical, subUni, net, data));
      && IsArtDmx(b)
      && b[16] == |data| / 256 && b[17] == |data| % 256
      && (forall k | 0 <= k < |data| :: b[DataOffset + k] == data[k])
  {
    var p := EncodeArtDmx(sequence, physical, subUni, net, data);
    var b := Receive(buffer, p);
    assert b[..8] == ArtNetId by {
      forall k | 0 <= k < 8 ensures b[k] == ArtNetId[k] {
        assert b[k] == p[k];
      }
    }
    forall k | 0 <= k < |data| ensures b[DataOffset + k] == data[k] {
      assert p[DataOffset..][k] == data[k];
    }
  }

  /** Round trip: whatever the receive buffer held before, an ArtDmx packet
      carrying `data` is relayed as the start code, `data`, zeros to the end
      of the frame, with `|data| + 1` bytes sent. */
  lemma DecodeEncode(sequence: byte, physical: byte, subUni: byte, net: byte, data: seq<byte>, buffer: seq<byte>)
    requires |data| <= MaxDmxLength && |buffer| == ArtnetBufferSize
    ensures Decode(Receive(buffer, EncodeArtDmx(sequence, physical, subUni, net, data)))
         == Some(Packet([0] + data + Zeros(MaxDmxLength - |data|), |data| + 1))
  {
    var b := Receive(buffer, EncodeArtDmx(sequence, physical, subUni, net, data));
    EncodedHeader(sequence, physical, subUni, net, data, buffer);
    var r := Decode(b);
    var expected := [0] + data + Zeros(MaxDmxLength - |data|);
    assert r.value.frame == expected by {
      assert forall j | 0 <= j < FrameSize :: r.value.frame[j] == expected[j];
    }
  }

  /** The program reads the length one byte late, so an ArtDmx packet whose
      announced length has a low byte of 2 or more makes it copy a whole
      universe to index 1 onward of its 512-byte buffer: index 512 is
      written past the end. */
  lemma AsWrittenOverruns(sequence: byte, physical: byte, subUni: byte, net: byte, data: seq<byte>, buffer: seq<byte>)
    requires 0 < |data| <= MaxDmxLength && |data| % 256 >= 2 && |buffer| == ArtnetBufferSize
    ensures DecodeAsWritten(Receive(buffer, EncodeArtDmx(sequence, physical, subUni, net, data)))
         == Some(Overrun(DeclaredDmxSize))
  {
    EncodedHeader(sequence, physical, subUni, net, data, buffer);
  }

  /** A full 512-slot universe is relayed by the program with `data[0] + 1`
      bytes instead of 513: it takes the low length byte (0) as the high
      byte and the first slot as the low byte. */
  lemma AsWrittenMisreadsLength(sequence: byte, physical: byte, subUni: byte, net: byte, data: seq<byte>, buffer: seq<byte>)
    requires |data| == MaxDmxLength && |buffer| == ArtnetBufferSize
    ensures var b := Receive(buffer, EncodeArtDmx(sequence, physical, subUni, net, data));
      && DecodeAsWritten(b).Some? && DecodeAsWritten(b).value.Sent?
      && DecodeAsWritten(b).value.packet.size == data[0] as int + 1
      && Decode(b).value.size == MaxDmxLength + 1
  {
    EncodedHeader(sequence, physical, subUni, net, data, buffer);
  }

  /** Receiving a datagram that is a prefix of the previous one leaves the
      buffer as the previous one made it; in particular a one-byte datagram
      after an ArtDmx packet makes the relay send that packet's frame again. */
  lemma PrefixLeavesBuffer(buffer: seq<byte>, previous: seq<byte>, datagram: seq<byte>)
    requires |buffer| == ArtnetBufferSize && datagram <= previous
    ensures Receive(Receive(buffer, previous), datagram) == Receive(buffer, previous)
  {
  }
}

=== FILE: rig.dfy ===
/** The controller's whole state: the globals of the program that the
    lighting engine reads and writes. */
module Rig {
  import opened Dmx
  import opened Store
  import opened Transition

  /** The output buffer `dmxData` is not part of the state: both paths
      that use it clear it first, so it carries nothing from one iteration
      to the next and lives only in the packet an iteration sends. */
  datatype Lights = Lights(
    engine: Engine,
    /** `currentScene`: 0 none, 1 rainbow, 2 chase; any other number is stored but animates nothing. */
    scene: int,
    /** `isRunningScene`. */
    running: bool,
    /** `sceneHue`, the rainbow's base hue. */
    hue: real,
    /** `chasePosition`. */
    chase: int,
    manualOverride: bool,
    fixtureCount: int,
    /** The last dimmer level the dimmer controls applied. */
    dimmerValue: int,
    /** The speed slider's last position. */
    speedValue: int,
    /** Transition speed in milliseconds, the scene cadence. */
    transitionSpeed: i32,
    /** `artnetPassthrough`: relay mode. */
    passthrough: bool,
    /** The Art-Net receive buffer; it keeps stale bytes between packets. */
    artnet: seq<byte>,
    lastSceneUpdate: u32,
    lastRainbowUpdate: u32,
    lastDmxUpdate: u32)

  /** What every reachable state satisfies. */
  predicate Valid(s: Lights) {
    && WellFormed(s.engine)
    && (forall i | 0 <= i < MaxChannels :: Coherent(s.engine.channels[i]))
    && (forall f | 0 <= f < MaxFixtures :: s.engine.steps[f] <= TransitionSteps)
    && 1 <= s.fixtureCount <= MaxFixtures
    && 0 <= s.chase < 3
    && 0.0 <= s.hue < 1.0
    && |s.artnet| == ArtnetBufferSize
  }

  /** The program's static initialisers, before `setup` restores saved settings. */
  function Init(): (s: Lights)
    ensures Valid(s)
    ensures forall i | 0 <= i < MaxChannels :: s.engine.channels[i] == Steady(0)
    ensures forall f | 0 <= f < MaxFixtures :: !s.engine.active[f] && s.engine.steps[f] == 0
  {
    Lights(
      Engine(seq(MaxChannels, _ => ChannelState(0, 0, false)),
             seq(MaxFixtures, _ => 0), seq(MaxFixtures, _ => false)),
      0, false, 0.0, 0, false, 1, 0, 500, 250, false,
      Zeros(ArtnetBufferSize), 0, 0, 0)
  }
}

=== FILE: scenes.dfy ===
/** The scene generator (`updateScene`) and the scene lifecycle
    (`startScene`, `stopScene`, `resetAll`). */
module Scenes {
  import opened Dmx
  import opened Store
  import opened Transition
  import opened Rig

  const NoScene: int := 0
  const RainbowScene: int := 1
  const ChaseScene: int := 2
  /** Advance of the rainbow's base hue per generator tick. */
  const HueIncrement: real := 0.001

  /** How a generator tick colours fixture `f`. */
  datatype Palette = ChasePalette(position: int) | RainbowPalette(hue: real, count: int)

  predicate ValidPalette(p: Palette) {
    match p
    case ChasePalette(position) => 0 <= position < 3
    case RainbowPalette(hue, count) => 0.0 <= hue < 1.0 && count >= 1
  }

  /** The chase colours: step 0 red, 1 green, 2 blue, each one channel at full. */
  function ChaseColor(step: int): (c: Rgb)
    requires 0 <= step < 3
    ensures forall channel | IsColorChannel(channel) ::
      Component(c, channel) == if channel == ChannelRed + step then 255 else 0
  {
    if step == 0 then Rgb(255, 0, 0)
    else if step == 1 then Rgb(0, 255, 0)
    else Rgb(0, 0, 255)
  }

  /** Fixture `f`'s hue in the rainbow: the base hue shifted by `f / count`,
      wrapped back into [0, 1). */
  function BaseHue(hue: real, f: int, count: int): (h: real)
    requires count >= 1
    ensures 0.0 <= hue < 1.0 && 0 <= f < count ==> 0.0 <= h < 1.0
  {
    var shift := f as real / count as real;
    assert 0 <= f < count ==> 0.0 <= shift < 1.0 by {
      if 0 <= f < count {
        assert shift * count as real == f as real;
      }
    }
    var h := hue + shift;
    if h >= 1.0 then h - 1.0 else h
  }

  /** The rainbow's base hue after one tick: it wraps to 0 on reaching 1. */
  function NextHue(hue: real): (h: real)
    ensures 0.0 <= hue ==> 0.0 <= h < 1.0
    ensures hue + HueIncrement < 1.0 ==> h == hue + HueIncrement
    ensures hue + HueIncrement >= 1.0 ==> h == 0.0
  {
    if hue + HueIncrement >= 1.0 then 0.0 else hue + HueIncrement
  }

  /** The colour fixture `f` is retargeted to; `hsv` stands for `hsvToRgb`
      followed by the scaling of each channel to a byte. */
  function Paint(p: Palette, f: int, hsv: real -> Rgb): Rgb
    requires ValidPalette(p) && 0 <= f
  {
    match p
    case ChasePalette(position) => ChaseColor((position + f) % 3)
    case RainbowPalette(hue, count) => hsv(BaseHue(hue, f, count))
  }

  /** The body of the generator's loop for one fixture: new colour targets,
      marked pending, and a transition started if none is running. */
  function Retarget(e: Engine, f: int, color: Rgb): (r: Engine)
    requires WellFormed(e) && 0 <= f < MaxFixtures
    ensures WellFormed(r)
    ensures forall i | 0 <= i < MaxChannels ::
      r.channels[i] == if FixtureOf(i) == f && IsColorChannel(ChannelOf(i))
                       then e.channels[i].(target := Component(color, ChannelOf(i)), needsUpdate := true)
                       else e.channels[i]
    ensures forall g | 0 <= g < MaxFixtures :: r.active[g] == (g == f || e.active[g])
    ensures forall g | 0 <= g < MaxFixtures ::
      r.steps[g] == if g == f && !e.active[f] then 0 else e.steps[g]
  {
    var red, green, blue := Slot(f, ChannelRed), Slot(f, ChannelGreen), Slot(f, ChannelBlue);
    var ch := e.channels;
    var ch := ch[red := ch[red].(target := color.red, needsUpdate := true)];
    var ch := ch[green := ch[green].(target := color.green, needsUpdate := true)];
    var ch := ch[blue := ch[blue].(target := color.blue, needsUpdate := true)];
    var e' := e.(channels := ch);
    if e.active[f] then e' else StartTransition(e', f)
  }

  /** A whole generator pass stated slot by slot: the colour slots of every
      fixture below `count` get the palette's colour as target and become
      pending, every such fixture is transitioning, and a fixture that was
      idle restarts at step 0. Nothing else changes. */
  function Pass(e: Engine, count: int, p: Palette, hsv: real -> Rgb): (r: Engine)
    requires WellFormed(e) && 0 <= count <= MaxFixtures && ValidPalette(p)
    ensures WellFormed(r)
  {
    Engine(
      seq(MaxChannels, i requires 0 <= i < MaxChannels =>
        if FixtureOf(i) < count && IsColorChannel(ChannelOf(i))
        then e.channels[i].(target := Component(Paint(p, FixtureOf(i), hsv), ChannelOf(i)), needsUpdate := true)
        else e.channels[i]),
      seq(MaxFixtures, f requires 0 <= f < MaxFixtures => if f < count && !e.active[f] then 0 else e.steps[f]),
      seq(MaxFixtures, f requires 0 <= f < MaxFixtures => f < count || e.active[f]))
  }

  /** The generator's loop over the fixtures below `count`, one `Retarget`
      after another, has exactly the effect of the slot-by-slot `Pass`. */
  function RetargetAll(e: Engine, count: int, p: Palette, hsv: real -> Rgb): (r: Engine)
    requires WellFormed(e) && 0 <= count <= MaxFixtures && ValidPalette(p)
    ensures r == Pass(e, count, p, hsv)
    decreases count
  {
    if count == 0 then e
    else Retarget(RetargetAll(e, count - 1, p, hsv), count - 1, Paint(p, count - 1, hsv))
  }

  /** `updateScene`: one generator tick. It does nothing unless a scene is
      running without a manual override, and it only touches the engine,
      the hue and the chase position. The loop over fixtures is written as
      `Pass`, which `RetargetAll` shows equal to the loop itself. */
  function UpdateScene(s: Lights, hsv: real -> Rgb): (r: Lights)
    requires Valid(s)
    ensures Valid(r)
    ensures r == s.(engine := r.engine, hue := r.hue, chase := r.chase)
    ensures !s.running || s.manualOverride ==> r == s
    ensures s.scene != RainbowScene && s.scene != ChaseScene ==> r == s
  {
    if s.running && !s.manualOverride then
      if s.scene == RainbowScene then
        s.(engine := Pass(s.engine, s.fixtureCount, RainbowPalette(s.hue, s.fixtureCount), hsv),
           hue := NextHue(s.hue))
      else if s.scene == ChaseScene then
        s.(engine := Pass(s.engine, s.fixtureCount, ChasePalette(s.chase), hsv),
           chase := (s.chase + 1) % 3)
      else s
    else s
  }

  /** The target a chase pass gives one colour slot. */
  lemma ChasePaint(e: Engine, count: int, position: int, hsv: real -> Rgb, i: int)
    requires WellFormed(e) && 0 <= count <= MaxFixtures && 0 <= position < 3
    requires 0 <= i < MaxChannels && FixtureOf(i) < count && IsColorChannel(ChannelOf(i))
    ensures Pass(e, count, ChasePalette(position), hsv).channels[i].target
         == if ChannelOf(i) == ChannelRed + (position + FixtureOf(i)) % 3 then 255 else 0
  {
    var r := Pass(e, count, ChasePalette(position), hsv);
    var c := ChaseColor((position + FixtureOf(i)) % 3);
    assert Paint(ChasePalette(position), FixtureOf(i), hsv) == c;
    assert r.channels[i].target == Component(c, ChannelOf(i));
  }

  /** A chase tick: fixture `f` is retargeted to red, green or blue as
      `(chasePosition + f) % 3` is 0, 1 or 2, its three colour slots become
      pending, current values and all other slots stay, every fixture below
      the count is transitioning (an idle one from step 0, one under way at
      its step), fixtures past the count keep their counters, and the
      position advances by one modulo 3. */
  lemma ChaseTick(s: Lights, hsv: real -> Rgb)
    requires Valid(s) && s.running && !s.manualOverride && s.scene == ChaseScene
    ensures var r := UpdateScene(s, hsv);
      && r.chase == (s.chase + 1) % 3
      && (forall i | 0 <= i < MaxChannels && FixtureOf(i) < s.fixtureCount && IsColorChannel(ChannelOf(i)) ::
            && r.engine.channels[i].target
               == (if ChannelOf(i) == ChannelRed + (s.chase + FixtureOf(i)) % 3 then 255 else 0)
            && r.engine.channels[i].needsUpdate
            && r.engine.channels[i].current == s.engine.channels[i].current)
      && (forall i | 0 <= i < MaxChannels && !(FixtureOf(i) < s.fixtureCount && IsColorChannel(ChannelOf(i))) ::
            r.engine.channels[i] == s.engine.channels[i])
      && (forall f | 0 <= f < MaxFixtures ::
            && r.engine.steps[f] == (if f < s.fixtureCount && !s.engine.active[f] then 0 else s.engine.steps[f])
            && r.engine.active[f] == (f < s.fixtureCount || s.engine.active[f]))
  {
    ChaseTargets(s.engine, s.fixtureCount, s.chase, hsv);
  }

  /** `ChaseTick`'s targets, on the engine alone. */
  lemma ChaseTargets(e: Engine, count: int, position: int, hsv: real -> Rgb)
    requires WellFormed(e) && 0 <= count <= MaxFixtures && 0 <= position < 3
    ensures forall i | 0 <= i < MaxChannels && FixtureOf(i) < count && IsColorChannel(ChannelOf(i)) ::
      Pass(e, count, ChasePalette(position), hsv).channels[i].target
      == (if ChannelOf(i) == ChannelRed + (position + FixtureOf(i)) % 3 then 255 else 0)
  {
    forall i | 0 <= i < MaxChannels && FixtureOf(i) < count && IsColorChannel(ChannelOf(i))
      ensures Pass(e, count, ChasePalette(position), hsv).channels[i].target
              == (if ChannelOf(i) == ChannelRed + (position + FixtureOf(i)) % 3 then 255 else 0)
    {
      ChasePaint(e, count, position, hsv, i);
    }
  }

  /** The chase palette one position on gives fixture `f` the colour fixture
      `f + 1` had: with the position's advance in `ChaseTick`, each tick moves
      every colour one fixture down the line. */
  lemma ChaseRotates(position: int, f: int, hsv: real -> Rgb)
    requires 0 <= position < 3 && 0 <= f
    ensures Paint(ChasePalette((position + 1) % 3), f, hsv) == Paint(ChasePalette(position), f + 1, hsv)
  {
    ChasePositionShift(position, f);
  }

  lemma ChasePositionShift(c: int, f: int)
    requires 0 <= c < 3 && 0 <= f
    ensures ((c + 1) % 3 + f) % 3 == (c + (f + 1)) % 3
  {
    if c == 2 {
      assert (c + 1) % 3 == 0;
      assert (f + 3) % 3 == f % 3;
    }
  }

  /** A rainbow tick: fixture `f` below the count is retargeted to the
      colour of hue `hue + f / count` (wrapped into [0, 1)), its colour slots
      become pending, every fixture below the count is transitioning (an idle
      one from step 0, one under way at its step), fixtures past the count
      keep their counters, and the base hue advances by 0.001, wrapping to 0. */
  lemma RainbowTick(s: Lights, hsv: real -> Rgb)
    requires Valid(s) && s.running && !s.manualOverride && s.scene == RainbowScene
    ensures var r := UpdateScene(s, hsv);
      && r.hue == NextHue(s.hue) && r.chase == s.chase
      && (forall i | 0 <= i < MaxChannels && FixtureOf(i) < s.fixtureCount && IsColorChannel(ChannelOf(i)) ::
            && r.engine.channels[i].target
               == Component(hsv(BaseHue(s.hue, FixtureOf(i), s.fixtureCount)), ChannelOf(i))
            && r.engine.channels[i].needsUpdate
            && r.engine.channels[i].current == s.engine.channels[i].current)
      && (forall i | 0 <= i < MaxChannels && !(FixtureOf(i) < s.fixtureCount && IsColorChannel(ChannelOf(i))) ::
            r.engine.channels[i] == s.engine.channels[i])
      && (forall f | 0 <= f < MaxFixtures ::
            && r.engine.steps[f] == (if f < s.fixtureCount && !s.engine.active[f] then 0 else s.engine.steps[f])
            && r.engine.active[f] == (f < s.fixtureCount || s.engine.active[f]))
  {
  }

  /** `startScene`: the scene is recorded and running, hue and chase position
      restart, the manual override is cleared and fixture 0's transition
      restarts; no channel changes. */
  function StartScene(s: Lights, kind: int): (r: Lights)
    requires Valid(s)
    ensures Valid(r)
    ensures r.scene == kind && r.running && !r.manualOverride
    ensures r.hue == 0.0 && r.chase == 0
    ensures r.engine.channels == s.engine.channels
    ensures r.engine.active[0] && r.engine.steps[0] == 0
    ensures forall f | 0 < f < MaxFixtures ::
      r.engine.active[f] == s.engine.active[f] && r.engine.steps[f] == s.engine.steps[f]
    ensures r == s.(engine := r.engine, scene := kind, running := true, hue := 0.0, chase := 0, manualOverride := false)
  {
    s.(scene := kind, running := true, hue := 0.0, chase := 0, manualOverride := false,
       engine := StartTransition(s.engine, 0))
  }

  /** The first chase tick after starting the chase paints fixture `f`
      red, green or blue as `f % 3` is 0, 1 or 2. */
  lemma ChaseFromStart(s: Lights, hsv: real -> Rgb)
    requires Valid(s)
    ensures var r := UpdateScene(StartScene(s, ChaseScene), hsv);
      forall f, channel | 0 <= f < s.fixtureCount && IsColorChannel(channel) ::
        r.engine.channels[Slot(f, channel)].target == if channel == ChannelRed + f % 3 then 255 else 0
  {
    var s' := StartScene(s, ChaseScene);
    forall f, channel | 0 <= f < s.fixtureCount && IsColorChannel(channel)
      ensures UpdateScene(s', hsv).engine.channels[Slot(f, channel)].target
           == if channel == ChannelRed + f % 3 then 255 else 0
    {
      var i := Slot(f, channel);
      assert FixtureOf(i) == f && ChannelOf(i) == channel;
      ChasePaint(s'.engine, s.fixtureCount, 0, hsv, i);
    }
  }

  /** `stopScene`: no scene, the generator idles from now on, fixture 0's
      transition restarts, and pending slots stay pending. */
  function StopScene(s: Lights): (r: Lights)
    requires Valid(s)
    ensures Valid(r)
    ensures r.scene == NoScene && !r.running
    ensures forall hsv :: UpdateScene(r, hsv) == r
    ensures r.engine.channels == s.engine.channels
    ensures r.engine.active[0] && r.engine.steps[0] == 0
    ensures forall f | 0 < f < MaxFixtures ::
      r.engine.active[f] == s.engine.active[f] && r.engine.steps[f] == s.engine.steps[f]
    ensures r == s.(engine := r.engine, scene := NoScene, running := false)
  {
    s.(scene := NoScene, running := false, engine := StartTransition(s.engine, 0))
  }

  /** `resetAll`: every channel of every active fixture is set to 0 at once,
      the scene stops, the manual override and the dimmer level are cleared;
      transitions, hue and chase position are left as they were. */
  function ResetAll(s: Lights): (r: Lights)
    requires Valid(s)
    ensures Valid(r)
    ensures forall i | 0 <= i < MaxChannels ::
      r.engine.channels[i] == if FixtureOf(i) < s.fixtureCount then Steady(0) else s.engine.channels[i]
    ensures r.scene == NoScene && !r.running && !r.manualOverride && r.dimmerValue == 0
    ensures forall hsv :: UpdateScene(r, hsv) == r
    ensures r.engine.steps == s.engine.steps && r.engine.active == s.engine.active
    ensures r == s.(engine := r.engine, scene := NoScene, running := false, manualOverride := false, dimmerValue := 0)
  {
    s.(running := false, scene := NoScene,
       engine := s.engine.(channels := ClearAll(s.engine.channels, s.fixtureCount)),
       manualOverride := false, dimmerValue := 0)
  }
}

=== FILE: scheduler.dfy ===
/** One iteration of the main loop and the cadences that gate its work: the
    scene generator at the transition speed (three times slower for the
    chase, every 10 ms for the rainbow), the transition engine on every
    iteration, and a DMX frame at most every 25 ms. In relay mode an
    iteration only forwards Art-Net. */
module Scheduler {
  import opened Dmx
  import opened Store
  import opened Transition
  import opened Rig
  import opened Scenes
  import opened Relay
  import opened Frame
  import opened Controller

  const RainbowInterval: int := 10
  const ChaseSpeedMultiplier: int := 3
  const DmxInterval: int := 25

  const TwoTo31: int := 0x8000_0000
  const TwoTo32: int := 0x1_0000_0000

  /** `currentMillis - last` on 32-bit unsigned longs: correct across the
      wrap of the millisecond counter. */
  function Elapsed(now: u32, last: u32): (d: u32)
    ensures now >= last ==> d == now - last
    ensures now < last ==> d == now + TwoTo32 - last
  {
    (now - last) % TwoTo32
  }

  /** An unsigned 32-bit value stored in an `int`. */
  function AsSigned(x: u32): (r: i32)
    ensures r >= 0 <==> x < TwoTo31
    ensures r % TwoTo32 == x
  {
    if x < TwoTo31 then x else x - TwoTo32
  }

  /** An `int` compared with an unsigned long is converted to it. */
  function AsUnsigned(x: i32): (r: u32)
    ensures x >= 0 ==> r == x
    ensures r % TwoTo32 == x % TwoTo32
  {
    if x >= 0 then x else x + TwoTo32
  }

  /** A product stored back in an `int`: the low 32 bits, read as signed. */
  function WrapI32(x: int): (r: i32)
    ensures -TwoTo31 <= x < TwoTo31 ==> r == x
    ensures (r - x) % TwoTo32 == 0
  {
    (x + TwoTo31) % TwoTo32 - TwoTo31
  }

  /** `currentMillis - last >= interval` with `interval` an `int`. */
  predicate Due(now: u32, last: u32, interval: i32) {
    Elapsed(now, last) >= AsUnsigned(interval)
  }

  /** The scene cadence: the transition speed, times three for the chase. */
  function EffectiveSpeed(scene: int, speed: i32): (r: i32)
    ensures scene != ChaseScene ==> r == speed
    ensures scene == ChaseScene && 0 <= speed < TwoTo31 / ChaseSpeedMultiplier ==> r == speed * ChaseSpeedMultiplier
  {
    if scene == ChaseScene then WrapI32(speed * ChaseSpeedMultiplier) else speed
  }

  /** The frame cadence: the elapsed time is stored in an `int` first. */
  predicate DmxDue(now: u32, last: u32) {
    AsSigned(Elapsed(now, last)) >= DmxInterval
  }

  /** A frame is due when 25 ms or more have passed, unless 2^31 ms or
      more have, which the signed conversion turns negative. */
  lemma DmxDueIff(now: u32, last: u32)
    ensures DmxDue(now, last) <==> DmxInterval <= Elapsed(now, last) < TwoTo31
  {
  }

  /** A chase with a speed whose tripling fits an `int` steps once at least
      three times the speed has elapsed. */
  lemma ChaseCadence(now: u32, last: u32, speed: i32)
    requires 0 <= speed < TwoTo31 / ChaseSpeedMultiplier
    ensures Due(now, last, EffectiveSpeed(ChaseScene, speed)) <==> Elapsed(now, last) >= ChaseSpeedMultiplier * speed
  {
  }

  /** An `int` interval below 0 is compared as 2^32 plus the interval, so
      a negative transition speed makes the rainbow's refresh of the scene
      timestamp, and any scene other than the chase, wait at least 2^31 ms.
      The chase compares with the tripled speed: while that fits an `int`
      it waits 2^32 plus three times the speed. */
  lemma NegativeSpeedStalls(now: u32, last: u32, speed: i32)
    requires speed < 0
    ensures Due(now, last, speed) <==> Elapsed(now, last) >= TwoTo32 + speed
    ensures Due(now, last, speed) ==> Elapsed(now, last) >= TwoTo31
    ensures -TwoTo31 <= ChaseSpeedMultiplier * speed ==>
      (Due(now, last, EffectiveSpeed(ChaseScene, speed)) <==> Elapsed(now, last) >= TwoTo32 + ChaseSpeedMultiplier * speed)
  {
  }

  /** A negative speed whose tripling does not fit an `int` wraps to a
      positive cadence: at -10^9 ms the chase steps every 1 294 967 296 ms,
      less than 2^31. */
  lemma NegativeChaseWraps()
    ensures EffectiveSpeed(ChaseScene, -1_000_000_000) == 1_294_967_296
    ensures forall now: u32, last: u32 ::
      Due(now, last, EffectiveSpeed(ChaseScene, -1_000_000_000)) <==> Elapsed(now, last) >= 1_294_967_296
  {
  }

  /** Whether the scene block runs the generator at `now`: the rainbow
      every 10 ms, any other scene at its effective speed, never without a
      scene. */
  predicate GeneratorDue(s: Lights, now: u32) {
    if s.scene == RainbowScene then Due(now, s.lastRainbowUpdate, RainbowInterval)
    else s.scene != NoScene && Due(now, s.lastSceneUpdate, EffectiveSpeed(s.scene, s.transitionSpeed))
  }

  /** The scene block of the loop: a generator tick when its cadence is
      due, with the cadence's timestamp refreshed. The rainbow ticks every
      10 ms and only refreshes the scene timestamp at the transition speed. */
  function SceneCadence(s: Lights, now: u32, hsv: real -> Rgb): (r: Lights)
    requires Valid(s)
    ensures Valid(r)
    ensures s.scene == NoScene ==> r == s
    ensures r == s.(engine := r.engine, hue := r.hue, chase := r.chase,
                    lastSceneUpdate := r.lastSceneUpdate, lastRainbowUpdate := r.lastRainbowUpdate)
    ensures var g := if GeneratorDue(s, now) then UpdateScene(s, hsv) else s;
      r.engine == g.engine && r.hue == g.hue && r.chase == g.chase
    ensures s.scene == RainbowScene ==>
      && r.lastRainbowUpdate == (if Due(now, s.lastRainbowUpdate, RainbowInterval) then now else s.lastRainbowUpdate)
      && r.lastSceneUpdate == (if Due(now, s.lastSceneUpdate, s.transitionSpeed) then now else s.lastSceneUpdate)
    ensures s.scene != NoScene && s.scene != RainbowScene ==>
      && r.lastRainbowUpdate == s.lastRainbowUpdate
      && r.lastSceneUpdate
         == (if Due(now, s.lastSceneUpdate, EffectiveSpeed(s.scene, s.transitionSpeed)) then now else s.lastSceneUpdate)
  {
    if s.scene == NoScene then s
    else if s.scene == RainbowScene then
      var s1 := if Due(now, s.lastRainbowUpdate, RainbowInterval)
                then UpdateScene(s, hsv).(lastRainbowUpdate := now) else s;
      if Due(now, s1.lastSceneUpdate, s1.transitionSpeed) then s1.(lastSceneUpdate := now) else s1
    else if Due(now, s.lastSceneUpdate, EffectiveSpeed(s.scene, s.transitionSpeed)) then
      UpdateScene(s, hsv).(lastSceneUpdate := now)
    else s
  }

  /** Two generator ticks are a cadence apart: after a scene block that ran
      the generator, one less than the cadence later leaves the channels,
      transitions, hue and chase position alone. */
  lemma ScenesSpaced(s: Lights, now: u32, later: u32, hsv: real -> Rgb)
    requires Valid(s) && GeneratorDue(s, now)
    requires Elapsed(later, now)
             < AsUnsigned(if s.scene == RainbowScene then RainbowInterval else EffectiveSpeed(s.scene, s.transitionSpeed))
    ensures !GeneratorDue(SceneCadence(s, now, hsv), later)
    ensures var r := SceneCadence(s, now, hsv);
      var r' := SceneCadence(r, later, hsv);
      r'.engine == r.engine && r'.hue == r.hue && r'.chase == r.chase
  {
  }

  /** The two readings of the output path. `AsWritten` is the program: a
      512-byte `dmxData` and the ArtDmx length read from bytes 17-18, with
      a write to index 512 reported as an `Overrun`. `Corrected` has a
      513-byte buffer and reads the length from bytes 16-17, so every
      frame fits. The write past the buffer is taken to land on nothing the
      model holds, so nothing but the packets sent depends on the reading. */
  datatype Variant = AsWritten | Corrected

  /** Bytes of the output buffer. */
  function BufferSize(v: Variant): int {
    if v.AsWritten? then DeclaredDmxSize else FrameSize
  }

  /** `p` relays `len` data bytes of the receive buffer `b` from an output
      buffer of `size` bytes: the start code, the bytes from offset 18,
      zeros after them, and `len + 1` bytes sent. */
  predicate Relays(p: Packet, b: seq<byte>, len: int, size: int)
    requires |b| == ArtnetBufferSize && 0 <= len <= MaxDmxLength && len < size
  {
    && |p.frame| == size && p.size == len + 1 && p.frame[0] == 0
    && (forall j | 1 <= j <= len :: p.frame[j] == b[DataOffset + j - 1])
    && (forall j | len < j < size :: p.frame[j] == 0)
  }

  /** `p` shows the current values of the first `count` fixtures from an
      output buffer of `size` bytes: the start code, slot `idx` at index
      `idx + 1`, zeros after them, and `count * 8 + 1` bytes sent. */
  predicate Shows(p: Packet, ch: seq<ChannelState>, count: int, size: int)
    requires |ch| == MaxChannels && 1 <= count <= MaxFixtures && count * ChannelsPerFixture < size
  {
    && |p.frame| == size && p.size == count * ChannelsPerFixture + 1 && p.frame[0] == 0
    && (forall idx | 0 <= idx < count * ChannelsPerFixture :: p.frame[idx + 1] == ch[idx].current)
    && (forall j | count * ChannelsPerFixture < j < size :: p.frame[j] == 0)
  }

  /** What an iteration can hand to the driver: a packet with the NULL
      start code and a size that fits its buffer, or, in the program as
      written only, the write to index 512. */
  predicate Lawful(v: Variant, e: Emission) {
    match e
    case Sent(p) => |p.frame| == BufferSize(v) && p.frame[0] == 0 && 1 <= p.size <= BufferSize(v)
    case Overrun(index) => v.AsWritten? && index == DeclaredDmxSize
  }

  /** The decoder of the chosen reading. */
  function Relayed(v: Variant, b: seq<byte>): Option<Emission>
    requires |b| == ArtnetBufferSize
  {
    if v.AsWritten? then DecodeAsWritten(b)
    else match Decode(b)
      case None => None
      case Some(p) => Some(Sent(p))
  }

  /** The frame builder of the chosen reading. */
  function Framed(v: Variant, ch: seq<ChannelState>, count: int): Emission
    requires |ch| == MaxChannels && 1 <= count <= MaxFixtures
  {
    if v.AsWritten? then BuildFrameAsWritten(ch, count) else Sent(BuildFrame(ch, count))
  }

  /** The state after an iteration and what it hands to the driver. */
  datatype Output = Output(state: Lights, sent: Option<Emission>)

  /** The relay branch: a non-empty datagram is read into the receive
      buffer, and an ArtDmx packet in it is relayed: as written, with the
      length read from bytes 17-18 and a length of 512 overrunning the
      buffer; corrected, with the length from bytes 16-17. */
  function RelayStep(s: Lights, v: Variant, datagram: seq<byte>): (o: Output)
    requires Valid(s)
    ensures Valid(o.state)
    ensures o.state == s.(artnet := o.state.artnet)
    ensures |datagram| == 0 ==> o == Output(s, None)
    ensures |datagram| > 0 ==> o.state.artnet == Receive(s.artnet, datagram)
    ensures |datagram| > 0 ==> (o.sent.Some? <==> IsArtDmx(o.state.artnet))
    ensures o.sent.Some? && v.Corrected? ==>
      o.sent.value.Sent? && Relays(o.sent.value.packet, o.state.artnet, Length(o.state.artnet), FrameSize)
    ensures o.sent.Some? && v.AsWritten? ==>
      var b := o.state.artnet;
      if LengthAsWritten(b) == MaxDmxLength then o.sent.value == Overrun(DeclaredDmxSize)
      else o.sent.value.Sent? && Relays(o.sent.value.packet, b, LengthAsWritten(b), DeclaredDmxSize)
  {
    if |datagram| == 0 then Output(s, None)
    else
      var b := Receive(s.artnet, datagram);
      Output(s.(artnet := b), Relayed(v, b))
  }

  /** The lighting half of an iteration: the scene block, then one call
      of the transition engine. */
  function Animate(s: Lights, now: u32, hsv: real -> Rgb): (r: Lights)
    requires Valid(s)
    ensures Valid(r)
    ensures r.passthrough == s.passthrough && r.lastDmxUpdate == s.lastDmxUpdate
      && r.artnet == s.artnet && r.fixtureCount == s.fixtureCount
    ensures r == s.(engine := r.engine, hue := r.hue, chase := r.chase,
                    lastSceneUpdate := r.lastSceneUpdate, lastRainbowUpdate := r.lastRainbowUpdate)
    ensures r.engine == UpdateTransition(SceneCadence(s, now, hsv).engine, s.fixtureCount)
  {
    var s1 := SceneCadence(s, now, hsv);
    UpdateKeepsInvariant(s1.engine, s1.fixtureCount);
    s1.(engine := UpdateTransition(s1.engine, s1.fixtureCount))
  }

  /** The frame block: when the cadence is due, a frame of the current
      values of the fixtures in use is sent and its time recorded; as
      written, 64 fixtures overrun the buffer instead. */
  function Emit(s: Lights, v: Variant, now: u32): (o: Output)
    requires Valid(s)
    ensures Valid(o.state)
    ensures o.sent.Some? <==> DmxDue(now, s.lastDmxUpdate)
    ensures o.state == if o.sent.Some? then s.(lastDmxUpdate := now) else s
    ensures o.sent.Some? && (v.Corrected? || s.fixtureCount < MaxFixtures) ==>
      o.sent.value.Sent? && Shows(o.sent.value.packet, s.engine.channels, s.fixtureCount, BufferSize(v))
    ensures o.sent.Some? && v.AsWritten? && s.fixtureCount == MaxFixtures ==>
      o.sent.value == Overrun(DeclaredDmxSize)
  {
    if DmxDue(now, s.lastDmxUpdate) then
      Output(s.(lastDmxUpdate := now), Some(Framed(v, s.engine.channels, s.fixtureCount)))
    else Output(s, None)
  }

  /** One iteration of `loop`. `touch` is the control under the finger, if
      any; `datagram` is the UDP datagram waiting, empty when there is none;
      `hsv` is the colour conversion. */
  function Step(s: Lights, v: Variant, now: u32, touch: Option<Touch>, datagram: seq<byte>, hsv: real -> Rgb): (o: Output)
    requires Valid(s)
    ensures Valid(o.state)
    ensures o.state.passthrough == s.passthrough
    ensures touch.None? ==> o.state.fixtureCount == s.fixtureCount
    ensures s.passthrough ==> o == RelayStep(s, v, datagram)
    ensures !s.passthrough ==> (o.sent.Some? <==> DmxDue(now, s.lastDmxUpdate))
    ensures !s.passthrough && o.sent.Some? ==> o.state.lastDmxUpdate == now
    ensures !s.passthrough && o.sent.Some? && (v.Corrected? || o.state.fixtureCount < MaxFixtures) ==>
      o.sent.value.Sent? && Shows(o.sent.value.packet, o.state.engine.channels, o.state.fixtureCount, BufferSize(v))
    ensures !s.passthrough && o.sent.Some? && v.AsWritten? && o.state.fixtureCount == MaxFixtures ==>
      o.sent.value == Overrun(DeclaredDmxSize)
    ensures o.sent.None? ==> o.state.lastDmxUpdate == s.lastDmxUpdate
    ensures o.sent.Some? ==> Lawful(v, o.sent.value)
  {
    if s.passthrough then RelayStep(s, v, datagram)
    else
      var s1 := if touch.Some? then Press(s, touch.value) else s;
      Emit(Animate(s1, now, hsv), v, now)
  }

  /** Two frames are at least 25 ms apart: after an iteration that sent
      one, an iteration less than 25 ms later sends none. */
  lemma FramesSpaced(s: Lights, v: Variant, now: u32, later: u32, touch: Option<Touch>, touch': Option<Touch>,
                     datagram: seq<byte>, datagram': seq<byte>, hsv: real -> Rgb)
    requires Valid(s) && !s.passthrough
    requires Step(s, v, now, touch, datagram, hsv).sent.Some?
    requires Elapsed(later, now) < DmxInterval
    ensures Step(Step(s, v, now, touch, datagram, hsv).state, v, later, touch', datagram', hsv).sent.None?
  {
  }

  /** In relay mode an iteration changes nothing but the receive buffer:
      the channel store, the transitions, the scene and its timestamps are
      left for when relay mode ends. */
  lemma RelayKeepsLights(s: Lights, v: Variant, now: u32, touch: Option<Touch>, datagram: seq<byte>, hsv: real -> Rgb)
    requires Valid(s) && s.passthrough
    ensures var r := Step(s, v, now, touch, datagram, hsv).state;
      && r.engine == s.engine && r.scene == s.scene && r.running == s.running
      && r.fixtureCount == s.fixtureCount && r.lastDmxUpdate == s.lastDmxUpdate
  {
  }

  /** In relay mode, an ArtDmx packet whose length has a low byte of 2 or
      more (a 24-slot universe, say) makes the program write past its
      output buffer, while the corrected relay sends the start code, the
      data and zeros with `|data| + 1` bytes. */
  lemma RelayOverruns(s: Lights, now: u32, touch: Option<Touch>, hsv: real -> Rgb,
                      sequence: byte, physical: byte, subUni: byte, net: byte, data: seq<byte>)
    requires Valid(s) && s.passthrough
    requires 0 < |data| <= MaxDmxLength && |data| % 256 >= 2
    ensures var datagram := EncodeArtDmx(sequence, physical, subUni, net, data);
      && Step(s, AsWritten, now, touch, datagram, hsv).sent == Some(Overrun(DeclaredDmxSize))
      && Step(s, Corrected, now, touch, datagram, hsv).sent
         == Some(Sent(Packet([0] + data + Zeros(MaxDmxLength - |data|), |data| + 1)))
  {
    AsWrittenOverruns(sequence, physical, subUni, net, data, s.artnet);
    DecodeEncode(sequence, physical, subUni, net, data, s.artnet);
  }

  /** With all 64 fixtures in use, every frame the program builds writes
      index 512 of its buffer, while the corrected frame carries all 513
      bytes. */
  lemma FullRigOverruns(s: Lights, now: u32, datagram: seq<byte>, hsv: real -> Rgb)
    requires Valid(s) && !s.passthrough && s.fixtureCount == MaxFixtures
    requires DmxDue(now, s.lastDmxUpdate)
    ensures Step(s, AsWritten, now, None, datagram, hsv).sent == Some(Overrun(DeclaredDmxSize))
    ensures Step(s, Corrected, now, None, datagram, hsv).sent.value.Sent?
    ensures Step(s, Corrected, now, None, datagram, hsv).sent.value.packet.size == FrameSize
  {
  }

  /** The reading of the output path never feeds back, provided the
      overrun clobbers nothing modelled: an iteration leaves the same state
      under both. */
  lemma StepStateAgrees(s: Lights, now: u32, touch: Option<Touch>, datagram: seq<byte>, hsv: real -> Rgb)
    requires Valid(s)
    ensures Step(s, AsWritten, now, touch, datagram, hsv).state == Step(s, Corrected, now, touch, datagram, hsv).state
  {
  }

  /** What reaches the controller between two instants: a web-socket
      message, handled as a whole, or a loop iteration. */
  datatype Event =
    | Message(cmd: Command)
    | Iteration(now: u32, touch: Option<Touch>, datagram: seq<byte>)

  /** The states a sequence of events leads through, with what each
      iteration handed to the driver. */
  function Run(s: Lights, v: Variant, events: seq<Event>, hsv: real -> Rgb): (r: (Lights, seq<Emission>))
    requires Valid(s)
    ensures Valid(r.0)
    ensures 1 <= r.0.fixtureCount <= MaxFixtures
    ensures |r.1| <= |events|
    decreases |events|
  {
    if |events| == 0 then (s, [])
    else
      var (s', sent) := Run(s, v, events[..|events| - 1], hsv);
      match events[|events| - 1]
      case Message(cmd) => (Apply(s', cmd), sent)
      case Iteration(now, touch, datagram) =>
        var o := Step(s', v, now, touch, datagram, hsv);
        (o.state, if o.sent.Some? then sent + [o.sent.value] else sent)
  }

  /** The lights go through the same states under both readings, provided
      the overrun clobbers nothing modelled: only the packets differ. */
  lemma {:induction false} RunStateAgrees(s: Lights, events: seq<Event>, hsv: real -> Rgb)
    requires Valid(s)
    ensures Run(s, AsWritten, events, hsv).0 == Run(s, Corrected, events, hsv).0
    decreases |events|
  {
    if |events| > 0 {
      RunStateAgrees(s, events[..|events| - 1], hsv);
      var s' := Run(s, AsWritten, events[..|events| - 1], hsv).0;
      match events[|events| - 1]
      case Message(cmd) =>
      case Iteration(now, touch, datagram) => StepStateAgrees(s', now, touch, datagram, hsv);
    }
  }

  /** Every packet the controller sends starts with the NULL start code and
      announces between 1 byte and its whole buffer; corrected, no write
      ever passes the buffer, and as written the only one is to index 512. */
  lemma {:induction false} SentFramesWellFormed(s: Lights, v: Variant, events: seq<Event>, hsv: real -> Rgb)
    requires Valid(s)
    ensures forall e | e in Run(s, v, events, hsv).1 :: Lawful(v, e)
    decreases |events|
  {
    if |events| > 0 {
      SentFramesWellFormed(s, v, events[..|events| - 1], hsv);
    }
  }
}

=== FILE: store.dfy ===
/** The channel state store: one `ChannelState` per (fixture, channel) pair,
    kept in a flat array indexed by `fixture * 8 + channel - 1`, and the
    direct ("manual") writes that set a slot live immediately. */
module Store {
  import opened Dmx

  /** One slot: the value on the wire, the value being approached, and
      whether the transition engine still has to move it. */
  datatype ChannelState = ChannelState(current: byte, target: byte, needsUpdate: bool)

  /** A colour as three channel values. */
  datatype Rgb = Rgb(red: byte, green: byte, blue: byte)

  /** A slot the engine is not moving already holds its target. */
  predicate Coherent(c: ChannelState) {
    c.needsUpdate || c.current == c.target
  }

  /** What a direct write leaves in a slot: live at once, nothing pending. */
  function Steady(value: byte): ChannelState {
    ChannelState(value, value, false)
  }

  predicate IsAddress(fixture: int, channel: int) {
    0 <= fixture < MaxFixtures && 1 <= channel <= ChannelsPerFixture
  }

  predicate IsColorChannel(channel: int) {
    ChannelRed <= channel <= ChannelBlue
  }

  /** The fixture a flat index belongs to. */
  function FixtureOf(i: int): int {
    i / ChannelsPerFixture
  }

  /** The 1-based channel a flat index stands for. */
  function ChannelOf(i: int): int {
    i % ChannelsPerFixture + 1
  }

  /** Flat index of (fixture, channel); the two decoders above invert it. */
  function Slot(fixture: int, channel: int): (i: int)
    ensures IsAddress(fixture, channel) ==>
      0 <= i < MaxChannels && FixtureOf(i) == fixture && ChannelOf(i) == channel
  {
    fixture * ChannelsPerFixture + (channel - 1)
  }

  /** Every index of the store is the slot of exactly the address it decodes to. */
  lemma EverySlotAddressed(i: int)
    requires 0 <= i < MaxChannels
    ensures IsAddress(FixtureOf(i), ChannelOf(i))
    ensures Slot(FixtureOf(i), ChannelOf(i)) == i
  {
  }

  /** The channel of `c` that a colour channel number selects. */
  function Component(c: Rgb, channel: int): byte {
    if channel == ChannelRed then c.red
    else if channel == ChannelGreen then c.green
    else c.blue
  }

  /** `setChannelValue`: a direct write of one slot, ignored when the
      address is out of range. */
  function SetChannelValue(ch: seq<ChannelState>, channel: int, value: byte, fixture: int): (r: seq<ChannelState>)
    requires |ch| == MaxChannels
    ensures |r| == MaxChannels
    ensures forall i | 0 <= i < MaxChannels ::
      r[i] == if FixtureOf(i) == fixture && ChannelOf(i) == channel then Steady(value) else ch[i]
    ensures !IsAddress(fixture, channel) ==> r == ch
  {
    if 1 <= channel <= ChannelsPerFixture && 0 <= fixture < MaxFixtures then
      ch[Slot(fixture, channel) := Steady(value)]
    else
      ch
  }

  /** The value the last write to `channel` in `writes` leaves behind, if any. */
  function LastWrite(writes: seq<(int, byte)>, channel: int): Option<byte>
  {
    if |writes| == 0 then None
    else if writes[|writes| - 1].0 == channel then Some(writes[|writes| - 1].1)
    else LastWrite(writes[..|writes| - 1], channel)
  }

  /** A slot of channel `channel` after `writes`. */
  function AfterWrites(c: ChannelState, writes: seq<(int, byte)>, channel: int): ChannelState {
    match LastWrite(writes, channel)
    case None => c
    case Some(v) => Steady(v)
  }

  /** Applies a list of (channel, value) writes, in order, to one fixture. */
  function WriteFixture(ch: seq<ChannelState>, writes: seq<(int, byte)>, fixture: int): (r: seq<ChannelState>)
    requires |ch| == MaxChannels
    ensures |r| == MaxChannels
    ensures forall i | 0 <= i < MaxChannels ::
      r[i] == if FixtureOf(i) == fixture then AfterWrites(ch[i], writes, ChannelOf(i)) else ch[i]
    decreases |writes|
  {
    if |writes| == 0 then ch
    else
      var last := writes[|writes| - 1];
      SetChannelValue(WriteFixture(ch, writes[..|writes| - 1], fixture), last.0, last.1, fixture)
  }

  /** The `for (f = 0; f < fixtureCount; ++f)` loop around a per-fixture write. */
  function WriteFixtures(ch: seq<ChannelState>, writes: seq<(int, byte)>, count: int): (r: seq<ChannelState>)
    requires |ch| == MaxChannels
    ensures |r| == MaxChannels
    ensures forall i | 0 <= i < MaxChannels ::
      r[i] == if FixtureOf(i) < count then AfterWrites(ch[i], writes, ChannelOf(i)) else ch[i]
    decreases count
  {
    if count <= 0 then ch
    else WriteFixture(WriteFixtures(ch, writes, count - 1), writes, count - 1)
  }

  function ColorWrites(color: Rgb): seq<(int, byte)> {
    [(ChannelRed, color.red), (ChannelGreen, color.green), (ChannelBlue, color.blue)]
  }

  /** The writes of `resetAll` to one fixture: every channel to 0. */
  function ResetWrites(): seq<(int, byte)> {
    seq(ChannelsPerFixture, i requires 0 <= i < ChannelsPerFixture => (i + 1, 0))
  }

  /** The colour writes set exactly the three colour channels. */
  lemma ColorWritesCover(color: Rgb, channel: int)
    ensures LastWrite(ColorWrites(color), channel) ==
      if IsColorChannel(channel) then Some(Component(color, channel)) else None
  {
    var w := ColorWrites(color);
    var w2 := [(ChannelRed, color.red), (ChannelGreen, color.green)];
    var w1 := [(ChannelRed, color.red)];
    assert w[..2] == w2 && w2[..1] == w1 && |w1[..0]| == 0;
    assert LastWrite(w1, channel) == if channel == ChannelRed then Some(color.red) else None;
    assert LastWrite(w2, channel) == if channel == ChannelGreen then Some(color.green) else LastWrite(w1, channel);
  }

  /** The reset writes zero every channel of the fixture. */
  lemma {:induction false} ResetWritesCover(channel: int)
    ensures LastWrite(ResetWrites(), channel) ==
      if 1 <= channel <= ChannelsPerFixture then Some(0) else None
  {
    assert ResetWrites()[..ChannelsPerFixture] == ResetWrites();
    PrefixWrites(ChannelsPerFixture, channel);
  }

  lemma {:induction false} PrefixWrites(k: nat, channel: int)
    requires k <= ChannelsPerFixture
    ensures LastWrite(ResetWrites()[..k], channel) == if 1 <= channel <= k then Some(0) else None
  {
    var w := ResetWrites()[..k];
    if k > 0 {
      assert w[..k - 1] == ResetWrites()[..k - 1];
      PrefixWrites(k - 1, channel);
    }
  }

  /** `setColor`: the three colour channels of one fixture, live at once. */
  function WriteColor(ch: seq<ChannelState>, color: Rgb, fixture: int): (r: seq<ChannelState>)
    requires |ch| == MaxChannels
    ensures |r| == MaxChannels
    ensures forall i | 0 <= i < MaxChannels ::
      r[i] == if FixtureOf(i) == fixture && IsColorChannel(ChannelOf(i))
              then Steady(Component(color, ChannelOf(i))) else ch[i]
  {
    forall c { ColorWritesCover(color, c); }
    WriteFixture(ch, ColorWrites(color), fixture)
  }

  /** `setDimmer`. */
  function WriteDimmer(ch: seq<ChannelState>, value: byte, fixture: int): (r: seq<ChannelState>)
    requires |ch| == MaxChannels
    ensures |r| == MaxChannels
    ensures forall i | 0 <= i < MaxChannels ::
      r[i] == if FixtureOf(i) == fixture && ChannelOf(i) == ChannelDimmer then Steady(value) else ch[i]
  {
    SetChannelValue(ch, ChannelDimmer, value, fixture)
  }

  /** A direct write to one channel of every fixture below `count`. */
  function SetAll(ch: seq<ChannelState>, channel: int, value: byte, count: int): (r: seq<ChannelState>)
    requires |ch| == MaxChannels
    ensures |r| == MaxChannels
    ensures forall i | 0 <= i < MaxChannels ::
      r[i] == if FixtureOf(i) < count && ChannelOf(i) == channel then Steady(value) else ch[i]
  {
    var w := [(channel, value)];
    assert |w[..0]| == 0;
    assert forall c :: LastWrite(w, c) == if c == channel then Some(value) else LastWrite(w[..0], c);
    WriteFixtures(ch, w, count)
  }

  /** A colour written directly to every fixture below `count`. */
  function ColorAll(ch: seq<ChannelState>, color: Rgb, count: int): (r: seq<ChannelState>)
    requires |ch| == MaxChannels
    ensures |r| == MaxChannels
    ensures forall i | 0 <= i < MaxChannels ::
      r[i] == if FixtureOf(i) < count && IsColorChannel(ChannelOf(i))
              then Steady(Component(color, ChannelOf(i))) else ch[i]
  {
    forall c { ColorWritesCover(color, c); }
    WriteFixtures(ch, ColorWrites(color), count)
  }

  /** Every channel of every fixture below `count` set to 0. */
  function ClearAll(ch: seq<ChannelState>, count: int): (r: seq<ChannelState>)
    requires |ch| == MaxChannels
    ensures |r| == MaxChannels
    ensures forall i | 0 <= i < MaxChannels ::
      r[i] == if FixtureOf(i) < count then Steady(0) else ch[i]
  {
    forall c { ResetWritesCover(c); }
    WriteFixtures(ch, ResetWrites(), count)
  }

  /** A later direct write to the same slot hides an earlier one. */
  lemma LastWriteWins(ch: seq<ChannelState>, channel: int, v1: byte, v2: byte, fixture: int)
    requires |ch| == MaxChannels
    ensures SetChannelValue(SetChannelValue(ch, channel, v1, fixture), channel, v2, fixture)
         == SetChannelValue(ch, channel, v2, fixture)
  {
  }

  /** Direct writes to different slots commute. */
  lemma WritesCommute(ch: seq<ChannelState>, c1: int, v1: byte, f1: int, c2: int, v2: byte, f2: int)
    requires |ch| == MaxChannels
    requires c1 != c2 || f1 != f2
    ensures SetChannelValue(SetChannelValue(ch, c1, v1, f1), c2, v2, f2)
         == SetChannelValue(SetChannelValue(ch, c2, v2, f2), c1, v1, f1)
  {
  }

  /** Direct writes keep every slot coherent. */
  lemma WritesKeepCoherent(ch: seq<ChannelState>, writes: seq<(int, byte)>, count: int)
    requires |ch| == MaxChannels
    requires forall i | 0 <= i < MaxChannels :: Coherent(ch[i])
    ensures forall i | 0 <= i < MaxChannels :: Coherent(WriteFixtures(ch, writes, count)[i])
  {
  }
}

=== FILE: transition.dfy ===
/** The per-fixture transition engine: a step counter and an active flag per
    fixture, advanced once per loop iteration by `updateTransition`. */
module Transition {
  import opened Dmx
  import opened Store
  import opened Easing

  /** The channel store together with `transitionStep` and `isTransitioning`. */
  datatype Engine = Engine(channels: seq<ChannelState>, steps: seq<nat>, active: seq<bool>)

  predicate WellFormed(e: Engine) {
    |e.channels| == MaxChannels && |e.steps| == MaxFixtures && |e.active| == MaxFixtures
  }

  /** `startTransition`: restart fixture `f`'s transition at step 0. */
  function StartTransition(e: Engine, f: int): (r: Engine)
    requires WellFormed(e) && 0 <= f < MaxFixtures
    ensures WellFormed(r) && r.channels == e.channels
    ensures r.active[f] && r.steps[f] == 0
    ensures forall g | 0 <= g < MaxFixtures && g != f :: r.steps[g] == e.steps[g] && r.active[g] == e.active[g]
  {
    e.(steps := e.steps[f := 0], active := e.active[f := true])
  }

  /** What one `updateTransition` call does to one slot of a fixture whose
      counter is `step`: interpolate while `step < 50`, then snap once. */
  function SlotTick(c: ChannelState, step: nat, active: bool): ChannelState {
    if active && step < TransitionSteps then
      if c.needsUpdate then c.(current := Lerp(c.current, c.target, Ease(step))) else c
    else if active then
      if c.needsUpdate then c.(current := c.target, needsUpdate := false) else c
    else
      c
  }

  function NextStep(step: nat, active: bool): nat {
    if active && step < TransitionSteps then step + 1 else step
  }

  /** One iteration of the loop over fixtures in `updateTransition`. */
  function TickFixture(e: Engine, f: int): (r: Engine)
    requires WellFormed(e) && 0 <= f < MaxFixtures
    ensures WellFormed(r)
  {
    var step, active := e.steps[f], e.active[f];
    Engine(
      seq(MaxChannels, i requires 0 <= i < MaxChannels =>
        if FixtureOf(i) == f then SlotTick(e.channels[i], step, active) else e.channels[i]),
      e.steps[f := NextStep(step, active)],
      e.active[f := active && step < TransitionSteps])
  }

  /** `updateTransition`: every fixture below `count` advances by one tick,
      each on its own counter; fixtures at or above `count` are untouched. */
  function UpdateTransition(e: Engine, count: int): (r: Engine)
    requires WellFormed(e) && 0 <= count <= MaxFixtures
    ensures WellFormed(r)
    ensures forall i | 0 <= i < MaxChannels ::
      r.channels[i] == if FixtureOf(i) < count
                       then SlotTick(e.channels[i], e.steps[FixtureOf(i)], e.active[FixtureOf(i)])
                       else e.channels[i]
    ensures forall f | 0 <= f < MaxFixtures ::
      r.steps[f] == if f < count then NextStep(e.steps[f], e.active[f]) else e.steps[f]
    ensures forall f | 0 <= f < MaxFixtures ::
      r.active[f] == (e.active[f] && (f >= count || e.steps[f] < TransitionSteps))
    decreases count
  {
    if count == 0 then e
    else TickFixture(UpdateTransition(e, count - 1), count - 1)
  }

  /** An interpolation tick of fixture `f`: its counter goes up by exactly one,
      each slot it is moving ends between its old value and its target, and
      nothing else changes. */
  lemma InterpolationTick(e: Engine, count: int, f: int)
    requires WellFormed(e) && 0 <= f < count <= MaxFixtures
    requires e.active[f] && e.steps[f] < TransitionSteps
    ensures var r := UpdateTransition(e, count);
      && r.steps[f] == e.steps[f] + 1 && r.active[f]
      && (forall i | 0 <= i < MaxChannels && FixtureOf(i) == f && e.channels[i].needsUpdate ::
            && r.channels[i].target == e.channels[i].target
            && r.channels[i].needsUpdate
            && Between(r.channels[i].current, e.channels[i].current, e.channels[i].target))
      && (forall i | 0 <= i < MaxChannels && !e.channels[i].needsUpdate ::
            r.channels[i] == e.channels[i])
      && (forall i | 0 <= i < MaxChannels && FixtureOf(i) >= count :: r.channels[i] == e.channels[i])
  {
  }

  predicate Between(v: int, a: int, b: int) {
    (a <= v <= b) || (b <= v <= a)
  }

  /** `k` consecutive loop iterations. */
  function Ticks(e: Engine, count: int, k: nat): (r: Engine)
    requires WellFormed(e) && 0 <= count <= MaxFixtures
    ensures WellFormed(r)
    decreases k
  {
    if k == 0 then e else UpdateTransition(Ticks(e, count, k - 1), count)
  }

  /** While its counter is below 50, an active fixture keeps every slot's
      target and pending flag, and leaves its settled slots alone. */
  lemma {:induction false} Advance(e: Engine, count: int, f: int, k: nat)
    requires WellFormed(e) && 0 <= f < count <= MaxFixtures
    requires e.active[f] && e.steps[f] + k <= TransitionSteps
    ensures var r := Ticks(e, count, k);
      && r.active[f] && r.steps[f] == e.steps[f] + k
      && forall i | 0 <= i < MaxChannels && FixtureOf(i) == f ::
           && r.channels[i].target == e.channels[i].target
           && r.channels[i].needsUpdate == e.channels[i].needsUpdate
           && (!e.channels[i].needsUpdate ==> r.channels[i] == e.channels[i])
  {
    if k > 0 {
      Advance(e, count, f, k - 1);
    }
  }

  /** Fifty calls after `startTransition` the fixture is still transitioning:
      the snap to the target is not part of the fiftieth step. */
  lemma StillActiveAfterFifty(e: Engine, count: int, f: int)
    requires WellFormed(e) && 0 <= f < count <= MaxFixtures
    ensures var r := Ticks(StartTransition(e, f), count, TransitionSteps);
      r.active[f] && r.steps[f] == TransitionSteps
  {
    Advance(StartTransition(e, f), count, f, TransitionSteps);
  }

  /** After `startTransition(f)`, fifty interpolation calls and one more leave
      every slot of `f` that was moving exactly at its target, nothing of `f`
      pending, and `f` no longer transitioning. */
  lemma Settles(e: Engine, count: int, f: int)
    requires WellFormed(e) && 0 <= f < count <= MaxFixtures
    ensures var r := Ticks(StartTransition(e, f), count, TransitionSteps + 1);
      && !r.active[f]
      && forall i | 0 <= i < MaxChannels && FixtureOf(i) == f ::
           && !r.channels[i].needsUpdate
           && r.channels[i].target == e.channels[i].target
           && (e.channels[i].needsUpdate ==> r.channels[i].current == e.channels[i].target)
           && (!e.channels[i].needsUpdate ==> r.channels[i] == e.channels[i])
  {
    var s := StartTransition(e, f);
    Advance(s, count, f, TransitionSteps);
  }

  /** The engine never breaks a slot's coherence, and keeps counters at most 50. */
  lemma UpdateKeepsInvariant(e: Engine, count: int)
    requires WellFormed(e) && 0 <= count <= MaxFixtures
    requires forall i | 0 <= i < MaxChannels :: Coherent(e.channels[i])
    requires forall f | 0 <= f < MaxFixtures :: e.steps[f] <= TransitionSteps
    ensures var r := UpdateTransition(e, count);
      && (forall i | 0 <= i < MaxChannels :: Coherent(r.channels[i]))
      && (forall f | 0 <= f < MaxFixtures :: r.steps[f] <= TransitionSteps)
  {
  }
}
